=== FILE: README.md ===
# Drone flight path planner: a Dafny model

This project models the planning core of the drone flight path planner:

- 3D vector geometry and box obstacles (`Common.h`);
- the occupancy map (`Map.h`): blocking test, sampled segment test, safe altitude, predefined city;
- the path finder (`PathFinder.h`):
  - a direct route when the straight segment is clear;
  - otherwise a bounded A* search over a 26-connected lattice, whose raw route is shortened by greedy line-of-sight smoothing;
  - otherwise a four-point fly-over at the safe altitude;
  - every answer appended to a growable path cache;
- the battery and drone state machines (`Battery.h`, `Drone.h`).

Modules follow the source files:

| file | module | models |
|---|---|---|
| `geometry.dfy` | `Geometry` | `Vector3D` arithmetic, tolerance equality, normalisation, interpolation, `Obstacle` |
| `occupancy.dfy` | `Occupancy` | `Map3D` |
| `caching.dfy` | `Caching` | `PathCacheEntry` and the cache array of `PathFinder3D` |
| `smoothing.dfy` | `Smoothing` | `smoothPath` |
| `search.dfy` | `Search` | `PathNode`, `posKey`, `getNeighbors`, the A* loop and path reconstruction |
| `planner.dfy` | `Planner` | `PathFinder3D`: construction, copying, `findPath`, `calculatePathDistance` |
| `power.dfy` | `Power` | `Battery`, `HighCapacityBattery` |
| `drones.dfy` | `Drones` | `Drone`, `DeliveryDrone` |

Modelling choices:

- Coordinates are exact `real`s.
- The square root is not modelled. Every distance goes through a `Norm`: a caller-supplied function from vectors to nonnegative reals. `Distance(norm, a, b) = norm(a - b)`. Every result holds for any such norm, the Euclidean one included.
- The segment test samples at `t = k * step` for `k = 0, 1, …` while `t <= dist`. These are the points the source's `t += step` loop reaches in exact arithmetic.
- The map is used by the planner through the record `Planner.Volume`: a blocked test, a segment test and a safe altitude. `Planner.MapVolume` builds this record from a `Map3D` with the source's margins and step.
- The A* open set is a sequence. A pop takes the first entry of least total cost (`g + h`). The closed set is a map keyed by the truncated integer coordinates.
- The source's integer width is not modelled. No cache capacity the planner reaches comes near overflow.

## Model

| member | source | states |
|---|---|---|
| Geometry.AddSubCancel | Common.h:29-34 | adding and then subtracting the same vector gives the original back, in either order |
| Geometry.ScaleDivCancel | Common.h:35-40 | dividing by a nonzero scalar undoes multiplying by it, and the other way round |
| Geometry.ApproxEqReflexive | Common.h:41-43 | every point equals itself under the 0.1-per-axis tolerance |
| Geometry.ApproxEqSymmetric | Common.h:41-43 | tolerance equality does not depend on the order of its operands |
| Geometry.ApproxEqNotTransitive | Common.h:41-43 | tolerance equality is not transitive: some a, b, c have a == b and b == c but not a == c |
| Geometry.Distance | Common.h:46-48 | distance is never negative |
| Geometry.Normalize | Common.h:52-56 | a zero-magnitude vector normalises to the origin; otherwise scaling the result by the magnitude gives the vector back |
| Geometry.InterpolateEnds | Common.h:80-87 | interpolation at 0 is the start point and at 1 is the end point |
| Geometry.SafeMidpointIsLiftedHalfway | Common.h:91-97 | the safe midpoint is the halfway interpolation raised by the elevation boost |
| Geometry.ContainsPointMonotone | Common.h:109-116 | a point inside an obstacle with some margin is also inside with any larger margin |
| Geometry.CenterIsContained | Common.h:109-126 | an obstacle with nonnegative extents contains its own centre, at any nonnegative margin |
| Occupancy.AddObstacle | Map.h:20-22 | the obstacle list grows by one: the old obstacles first, the new one last, extents and name unchanged |
| Occupancy.LoadPredefinedMap | Map.h:24-39 | the predefined city holds exactly eleven obstacles, all with nonnegative extents, whatever the map held before |
| Occupancy.AnyContains | Map.h:47-50 | the scan over obstacles reports true exactly when some obstacle contains the point |
| Occupancy.IsBlocked | Map.h:41-51 | a point outside the extents is blocked; a point inside is blocked exactly when some obstacle contains it |
| Occupancy.SampleWithinSegment | Map.h:60 | the k-th sample lies within the segment exactly when k is at most floor(dist / step) |
| Occupancy.ScanPathClear | Map.h:54-65 | the sampling loop answers exactly the bounded-quantifier definition of a clear segment; segments shorter than 0.01 are clear; a segment of at least 0.01 from a blocked point is not |
| Occupancy.SampleOnSegment | Map.h:55-61 | every sample lies between the segment's endpoints on each axis, for any norm |
| Occupancy.ClearWithoutObstacles | Map.h:41-65 | in a map without obstacles, every segment between two in-bounds points is clear |
| Occupancy.MaxTop | Map.h:75-79 | the running maximum is nonnegative, bounds every obstacle top, and is 0 or some obstacle's top |
| Occupancy.SafeAltitude | Map.h:74-81 | the safe altitude is at least 2, at least every obstacle top plus 2, and is 2 or some top plus 2 |
| Occupancy.AddObstacleBlocks | Map.h:20-51 | adding an obstacle never unblocks a point, and blocks every point it contains |
| Occupancy.AddObstacleSafeAltitude | Map.h:74-81 | adding an obstacle raises the safe altitude to its top plus 2 when that top is higher, and leaves it otherwise |
| Occupancy.PredefinedSafeAltitude | Map.h:24-39 | over the predefined city the safe altitude is 17: the radio tower's top of 15 plus 2 |
| Caching.CopyWaypoints | PathFinder.h:49-53 | the element-by-element copy has the source's length and elements |
| Caching.StorePath | PathFinder.h:87-101 | a stored entry holds exactly the given waypoints, count and distance, whatever it held before |
| Caching.RetrievePath | PathFinder.h:104-110 | retrieval returns the stored waypoints, as many as the count says |
| Caching.CopyEntry | PathFinder.h:46-78 | the deep copy and the assignment give an entry equal to the original |
| Caching.StoreThenRetrieve | PathFinder.h:87-110 | storing and then retrieving a route round-trips the waypoints, the count and the distance |
| Caching.NewCache | PathFinder.h:194-198 | a new cache is well formed, empty, with ten slots |
| Caching.Reallocate | PathFinder.h:172-186 | reallocation doubles the slots, keeps the occupied prefix and leaves the rest empty |
| Caching.AddToCache | PathFinder.h:170-191 | insertion keeps the cache well formed; it appends exactly one entry after the old ones; capacity doubles exactly when the cache was full |
| Caching.CopyCache | PathFinder.h:207-232 | the copy constructor and assignment give a cache equal to the original, slots and size |
| Caching.AddAll | PathFinder.h:170-191 | a run of insertions keeps the old entries and appends the new ones in order, whatever the reallocations |
| Smoothing.FurthestVisible | PathFinder.h:157-163 | the inner scan picks a later waypoint that is the next one or clear from the cursor, with no clear waypoint beyond it |
| Smoothing.ScanBack | PathFinder.h:157-163 | the inner loop stops at exactly the waypoint that reference definition picks |
| Smoothing.ChainIsGreedy | PathFinder.h:151-168 | the cursor positions form a greedy chain: strictly increasing indices to the last waypoint, each step the furthest clear one or the next |
| Smoothing.SmoothPath | PathFinder.h:151-168 | the two loops compute the reference smoothing, a greedy chain of waypoints from the first |
| Smoothing.SmoothIsGreedy | PathFinder.h:151-168 | routes of at most two waypoints are unchanged; longer ones become exactly the waypoints at a greedy chain of indices from 0, a subsequence of the input |
| Smoothing.SmoothEnds | PathFinder.h:151-168 | smoothing never lengthens a route, keeps its first and last waypoints, and keeps at least two waypoints of a route that had two |
| Smoothing.ChainSkipsAreBlocked | PathFinder.h:158-163 | along a greedy chain, no kept waypoint is clear to any kept waypoint beyond its successor |
| Smoothing.SmoothIdempotent | PathFinder.h:151-168 | smoothing an already smoothed route returns it unchanged |
| Search.Truncate | PathFinder.h:122-126 | the key conversion truncates toward zero: within one unit of the value, never further from zero |
| Search.OffsetsAreUnitOffsets | PathFinder.h:135-138 | the three nested loops generate 26 directions: exactly the nonzero offsets in {-1,0,1}³ |
| Search.Neighbors | PathFinder.h:132-149 | the neighbours are at most 26, and a point is one exactly when it is one grid step away in some direction and not blocked |
| Search.MinIndex | PathFinder.h:24-26 | the popped entry has the least total cost in the open set, and no earlier entry ties it |
| Search.Pop | PathFinder.h:260-261 | a pop removes exactly the least-cost entry and keeps the rest, as a multiset |
| Search.GoalIndex | PathFinder.h:270-273 | reconstruction starts at the first node approximately at the goal position, or the last node when none is |
| Search.ReconstructPath | PathFinder.h:270-280 | the reconstructed route follows parent links from the start node to the chosen node and then to the end point, and is at most the chosen index plus two long |
| Search.ChildrenSpec | PathFinder.h:291-298 | exactly the neighbours not yet closed are pushed, each costed from the popped node and estimated to the end |
| Search.ExpandNeighbors | PathFinder.h:289-299 | the expansion loop appends exactly those children to both the open set and the node list, and parent links still point backwards |
| Search.NeighborsEndAtCorner | PathFinder.h:132-149 | the direction loops end with (1, 1, 1), so when that corner is unblocked it is the last neighbour |
| Search.FirstExpansionShape | PathFinder.h:289-298 | from a start at (5, 5, 5) with grid step 1, the first expansion pushes (6, 6, 6) last and pushes (6, 5, 5) somewhere |
| Search.ExpansionLinks | PathFinder.h:289-298 | in any expansion, as written every child gets the index of the node appended last; with the corrected linking every child gets the popped node's index; an unclosed neighbour is pushed either way |
| Search.LastAppendedLinkJumps | PathFinder.h:289-298 | after the first expansion from (5, 5, 5), popping (6, 5, 5) pushes (5, 4, 4) linked to (6, 6, 6), which is not one lattice step away; with the corrected linking every child is one step from its parent |
| Search.ExpandKeepsLattice | PathFinder.h:290-299 | with children linked to the popped node, every node but the start is an unblocked lattice neighbour of its parent |
| Search.ChainIsLatticeRoute | PathFinder.h:275-279 | a parent chain through such nodes gives a route of unblocked single lattice steps |
| Search.ReachGoal | PathFinder.h:268-280 | on reaching the goal the route starts at the start node, ends at the end point, and the point before the end approximately equals the accepted node |
| Search.Expand | PathFinder.h:289-299 | an expansion keeps the node list linked backwards, every open entry indexed, and, when linking to the popped node, every link a lattice step |
| Search.SearchLoop | PathFinder.h:247-300 | the loop makes at most 10000 pops; a found raw route runs from start to end through a point near the goal; a start within 1.5 grid steps of the goal is answered by a route at the first pop; when linking to the popped node it walks the lattice |
| Search.AStarAsWritten | PathFinder.h:247-300 | the search as written ends after at most 10000 pops with a route from start to end, or none; the point before the goal lies within 1.5 grid steps of it; a start within 1.5 grid steps of the goal is answered by a route at the first pop |
| Search.AStar | PathFinder.h:247-300 | with the corrected linking, a found route is a walk of single unblocked lattice steps from the start to its second-to-last point, which lies within 0.1 per axis of some point closer than 1.5 grid steps to the goal, and then ends at the goal |
| Planner.MapVolume | PathFinder.h:142-159 | the planner's view of a map: a point is blocked exactly when it is out of bounds or within 0.5 of an obstacle; a segment is clear exactly when every sample 0.5 apart along it is unblocked; the fly-over altitude is the map's safe altitude |
| Planner.NewPathFinder | PathFinder.h:194-198 | a new planner has the given grid step and an empty, well-formed cache of ten slots |
| Planner.DefaultPathFinder | PathFinder.h:194-198 | with the step left at its default the grid step is 1 and the cache is empty, well-formed, with ten slots |
| Planner.CopyPathFinder | PathFinder.h:207-232 | copying a planner gives one equal to the original, cache included |
| Planner.PathLengthNonnegative | PathFinder.h:315-321 | a route's length is nonnegative, and 0 for fewer than two waypoints |
| Planner.DirectPathLength | PathFinder.h:238-242 | the length of a two-point route is the distance between its points |
| Planner.CalculatePathDistance | PathFinder.h:315-321 | the accumulation loop computes the sum of leg lengths, which is nonnegative |
| Planner.FindPath | PathFinder.h:234-313 | for either linking (`LastAppended` as written, `PoppedNode` corrected): the route always has at least two points and runs from start to end; it is direct exactly when the straight segment is clear; otherwise it is the smoothing of a start-to-end route whose point before the goal lies within 1.5 grid steps of the goal, as the search's goal test demands, and which with the corrected linking is a lattice walk; or the four-point fly-over at the safe altitude; when the segment is not clear and the start is within 1.5 grid steps of the goal, the route comes from search; the cache gains exactly that route with its length |
| Planner.SearchOrFlyOver | PathFinder.h:246-307 | once the direct segment is refused: the smoothing of a start-to-end route whose point before the goal passed the goal test (within 1.5 grid steps of the goal) and which is a lattice walk under the corrected linking, always chosen when the start is within 1.5 grid steps of the goal, or else the four-point fly-over at the safe altitude |
| Planner.EmptyMapIsDirect | PathFinder.h:238-244 | over a map without obstacles, any two in-bounds points are joined directly, and the safe altitude is 2 |
| Planner.DefaultMapIsOpen | Map.h:17-18 | the default map has no obstacles, so any two of its in-bounds points are joined directly and the safe altitude is 2 |
| Planner.FlyOverAboveObstacles | PathFinder.h:302-307 | the fly-over legs at the safe altitude lie outside every obstacle for any margin below 2 |
| Power.NewBattery | Battery.h:31-32 | a new battery is full, with the given capacity, rate and type |
| Power.BatteryOfCapacity | Battery.h:30 | a battery of a given capacity starts full, drawing 0.5 per unit of distance, of type "Li-Ion" |
| Power.DefaultBattery | Battery.h:29 | the default battery starts full at 100, drawing 0.5 per unit of distance, of type "Li-Ion" |
| Power.Consume | Battery.h:37-40 | consumption never drives the charge below 0; the charge drops by distance × rate or stops at 0; from a nonnegative charge it never rises for a nonnegative draw; the other fields are unchanged |
| Power.Recharge | Battery.h:42 | a recharge fills the battery to capacity and changes nothing else |
| Power.Status | Battery.h:46-51 | each label holds exactly in its band: Good above 60 %, Moderate above 30 %, Low above 10 %, otherwise Critical |
| Power.CanTravelThenConsume | Battery.h:59-61 | a trip the battery can make leaves more than a tenth of capacity once consumed |
| Power.LowMatchesStatus | Battery.h:44-51 | a low battery is labelled Low or Critical, and a Critical battery is always low |
| Power.LowBelowTwentyPercent | Battery.h:44-55 | the low-charge warning holds exactly when the percentage is below 20 |
| Power.FullBatteryPercentage | Battery.h:55 | a new or recharged battery of nonzero capacity reads 100 percent |
| Power.FullBatteryIsGood | Battery.h:42-51 | a recharged battery of positive capacity is Good and not low |
| Power.NewHighCapacityBattery | Battery.h:69 | the high-capacity battery starts full at 200, drawing 0.4 per unit of distance, of type "Li-Po High-Cap", with fast charge on |
| Power.HighCapacityStatus | Battery.h:71-74 | the label is the base label, followed by the fast-charge note exactly when fast charge is on |
| Power.NewHighCapacityStatus | Battery.h:69-74 | a new high-capacity battery reads "Good [Fast-Charge Ready]" |
| Drones.NewDroneWithBattery | Drone.h:52-54 | a new drone is landed at the origin with no distance or missions, and has the given battery and speed |
| Drones.NewDrone | Drone.h:48-50 | a drone built without a battery keeps the given id, model and speed and is at rest with a full default battery |
| Drones.DefaultDrone | Drone.h:45-46 | the default drone is "DRN-001", model "Basic", at rest with speed 2 and the default battery |
| Drones.Move | Drone.h:57-63 | a landed drone ignores a move; a flying one arrives at the target, adds the distance flown, and consumes charge for it, and nothing else changes; the flown distance never decreases |
| Drones.TakeOff | Drone.h:73-76 | after take-off the drone flies directly above where it was: at height exactly 1 if it was lower, otherwise at its old position; nothing else changes |
| Drones.Land | Drone.h:77-80 | after landing the drone is on the ground directly below where it was, and nothing else changes |
| Drones.Hover | Drone.h:81 | hovering zeroes the velocity and nothing else changes |
| Drones.IncrementMission | Drone.h:95 | the mission count goes up by one and nothing else changes |
| Drones.ResetDistance | Drone.h:96 | the flown distance is reset to 0 and nothing else changes |
| Drones.LandedMoveIsIgnored | Drone.h:57-58 | however many moves a landed drone is given, it stays as it was |
| Drones.MoveAllMonotone | Drone.h:57-63 | along any sequence of moves, flown distance never decreases and a nonnegative charge never rises nor goes negative |
| Drones.MoveAfterCanTravel | Drone.h:57-63 | a move the battery was checked for leaves more than a tenth of capacity |
| Drones.NewDeliveryDrone | Drone.h:122-124 | a delivery drone keeps the given id, is model "Delivery-D1" with speed 2.5, starts at rest, empty, with a 5 kg limit and a full 150-unit "Li-Ion HD" battery drawing 0.7 per unit |
| Drones.SetPayload | Drone.h:126 | the payload never exceeds the maximum; it is the requested weight when that fits, and the maximum otherwise |

## Findings

| source | as written | input that shows it | evidently intended | confidence | as-written member | corrected member |
|---|---|---|---|---|---|---|
| PathFinder.h:290 | every child of the popped node gets parent `allNodes.size() - 1`, the node appended last, which is usually not the popped node | a start at (5, 5, 5) in open space with grid step 1: the first expansion pushes 26 neighbours, (6, 6, 6) last; with the goal at (10, 5, 5) behind an obstacle near (8, 5, 5) and the Euclidean distance, (6, 5, 5) is the only neighbour of least cost 5 and is popped next, and its neighbour (5, 4, 4) is linked to (6, 6, 6), two grid steps away along y and z | each child's parent is the popped node, so the reconstructed route moves one lattice step at a time through unblocked points | high; not executed | Search.AStarAsWritten, Search.LastAppendedLinkJumps | Search.AStar |

`Planner.FindPath` takes the linking as a parameter: with `LastAppended` it is the program as written, with `PoppedNode` the corrected one.
The pop order depends on the distance function, which the model leaves abstract, so `Search.LastAppendedLinkJumps` takes the popped index as given rather than deriving it.

## Notes

- Not every consecutive pair of a smoothed route is tested for clearance. When no later waypoint is clear, the cursor moves to the next waypoint without a check (`PathFinder.h:158`).
  The model follows the code: `Smoothing.FurthestVisible` promises "the next waypoint, or clear".
- The fly-over legs are never tested against the map. `Planner.FlyOverAboveObstacles` states what the safe altitude does guarantee: the horizontal leg lies above every obstacle.
- `Power.IsLow` (`Battery.h:44`), `Power.Percentage` (`Battery.h:55`) and `Power.CanTravel` (`Battery.h:59-61`) are one-line definitions with no contract of their own. What they promise is stated by the lemma rows that use them: `Power.LowMatchesStatus`, `Power.LowBelowTwentyPercent`, `Power.FullBatteryPercentage`, `Power.FullBatteryIsGood` and `Power.CanTravelThenConsume`.
- `Planner.FindPath` also returns an `Outcome` saying which branch produced the route. The source conveys this only through the route's shape.

## Left out

- The interactive menu, the simulator, the CSV logger and all text output (`main.cpp`, `Simulator.h`, `Logger.h`, `getInfo`, `operator<<`, the string conversions, `printCacheStats`): they are I/O, not planning logic.
- `SurveyDrone` and `RacingDrone`: they only set constructor constants and info strings.
- The `IPathFinder`, `PowerSource` and vehicle interfaces: they are abstract declarations with no behaviour of their own.
- Floating point: all arithmetic is exact.
  - The source's `t += step` accumulates rounding error, so its last sample can differ from `k * step`.
  - IEEE infinities and NaN are not modelled.
- `Geometry.Div`: requires a nonzero divisor. C++ yields infinities or NaN on zero; every call in the model divides by a positive magnitude.
- `Power.Percentage`: requires nonzero capacity, for the same reason.
- `Occupancy.ScanPathClear`: requires a positive step; the planner always passes 0.5. With a step of 0 the source loops forever whenever the first sample is not blocked. With a negative step the samples walk backwards from the start, off the segment, until one leaves the map's bounds and is blocked (`Map.h:41-44`), so the source answers "not clear".
- `Geometry.Distance`: the square root is abstracted as a norm parameter. The model states no Euclidean facts such as the triangle inequality.
- `Search.AStar`: A* optimality is not claimed.
  - Ties in the priority queue are resolved as the first entry of least cost. The standard library leaves that order unspecified.
  - The closed set's string keys are modelled as integer triples, which identify the same positions.
- Manual `new`/`delete`, the destructors and self-assignment checks: value semantics make them unnecessary. The copies are still modelled, as element-by-element loops.
- The 32-bit `int` of the cache size and capacity: overflow of `cacheCapacity * 2` would need more than a billion cached routes.
- `getCacheKey`: it is never called by the planning code.
- `Caching.AddToCache`: the source's `addToCache` also takes the start and end points (`PathFinder.h:170`) but never reads them, so the model omits them.

=== FILE: caching.dfy ===
/** The path cache of the planner (PathCacheEntry and the cache buffer of PathFinder3D).

    The source keeps a heap array of entries with a separate size and capacity,
    doubling the array when it is full. Here the backing array is the sequence
    `slots` (its length is the capacity) and `size` counts the slots in use;
    slots past `size` hold default-constructed entries, as after `new[]`.
 */
module Caching {
  import opened Geometry

  /** One stored route: the owned copy of its waypoints and its total length.
      The source's null pointer with a count of 0 is the empty sequence. */
  datatype Entry = Entry(waypoints: seq<Vector3>, totalDistance: real)
  {
    function WaypointCount(): int {
      |waypoints|
    }
  }

  /** A default-constructed entry: no waypoints, length 0. */
  const EmptyEntry := Entry([], 0.0)

  /** Capacity of the cache of a freshly constructed planner. */
  const InitialCapacity := 10

  /** Element-by-element copy into freshly allocated storage; the loop shared by
      storing, retrieving and copying an entry. */
  method CopyWaypoints(src: seq<Vector3>) returns (dst: seq<Vector3>)
    ensures |dst| == |src|
    ensures forall i | 0 <= i < |src| :: dst[i] == src[i]
  {
    if |src| == 0 {
      return [];
    }
    var buffer := new Vector3[|src|](_ => Origin);
    var i := 0;
    while i < |src|
      invariant 0 <= i <= |src|
      invariant forall k | 0 <= k < i :: buffer[k] == src[k]
    {
      buffer[i] := src[i];
      i := i + 1;
    }
    dst := buffer[..];
  }

  /** `storePath`: the entry's previous content is discarded and replaced by a copy of `path`. */
  method StorePath(e: Entry, path: seq<Vector3>, dist: real) returns (r: Entry)
    ensures r.WaypointCount() == |path|
    ensures r.waypoints == path
    ensures r.totalDistance == dist
  {
    var copy := CopyWaypoints(path);
    r := Entry(copy, dist);
  }

  /** `retrievePath`: a fresh sequence holding the entry's waypoints in order. */
  method RetrievePath(e: Entry) returns (path: seq<Vector3>)
    ensures |path| == e.WaypointCount()
    ensures path == e.waypoints
  {
    path := [];
    var i := 0;
    while i < e.WaypointCount()
      invariant 0 <= i <= e.WaypointCount()
      invariant path == e.waypoints[..i]
    {
      path := path + [e.waypoints[i]];
      i := i + 1;
    }
  }

  /** Copy constructor and assignment: an independent entry with equal contents. */
  method CopyEntry(other: Entry) returns (r: Entry)
    ensures r == other
  {
    var copy := CopyWaypoints(other.waypoints);
    r := Entry(copy, other.totalDistance);
  }

  /** What is stored, then read back, is the route that was given. */
  method StoreThenRetrieve(e: Entry, path: seq<Vector3>, dist: real) returns (back: seq<Vector3>, count: int, total: real)
    ensures back == path
    ensures count == |path|
    ensures total == dist
  {
    var stored := StorePath(e, path, dist);
    back := RetrievePath(stored);
    count := stored.WaypointCount();
    total := stored.totalDistance;
  }

  /** The cache: backing slots (capacity = |slots|) and the number in use. */
  datatype Cache = Cache(slots: seq<Entry>, size: nat)
  {
    function Capacity(): nat {
      |slots|
    }

    /** Size within capacity, capacity positive, unused slots untouched. */
    predicate Valid() {
      && 1 <= |slots|
      && size <= |slots|
      && forall i | size <= i < |slots| :: slots[i] == EmptyEntry
    }

    /** The entries in insertion order: the part of the buffer in use (all of it
        for a size past the capacity, which `Valid` rules out). */
    function Entries(): seq<Entry> {
      if size <= |slots| then slots[..size] else slots
    }
  }

  /** The cache a planner starts with: ten empty slots. */
  function NewCache(): (c: Cache)
    ensures c.Valid()
    ensures c.size == 0 && c.Capacity() == InitialCapacity
    ensures c.Entries() == []
  {
    Cache(seq(InitialCapacity, _ => EmptyEntry), 0)
  }

  /** Reallocation: a buffer twice as large holding the old entries in order,
      default entries after them. */
  method Reallocate(c: Cache) returns (slots: seq<Entry>)
    requires c.Valid()
    ensures |slots| == 2 * c.Capacity()
    ensures slots[..c.size] == c.slots[..c.size]
    ensures forall i | c.size <= i < |slots| :: slots[i] == EmptyEntry
  {
    var newCapacity := c.Capacity() * 2;
    var newCache := new Entry[newCapacity](_ => EmptyEntry);
    var i := 0;
    while i < c.size
      invariant 0 <= i <= c.size
      invariant forall k | 0 <= k < i :: newCache[k] == c.slots[k]
      invariant forall k | c.size <= k < newCapacity :: newCache[k] == EmptyEntry
    {
      var copy := CopyEntry(c.slots[i]);
      newCache[i] := copy;
      i := i + 1;
    }
    slots := newCache[..];
  }

  /** `addToCache`: grow when full, then store the route in the first unused slot. */
  method AddToCache(c: Cache, path: seq<Vector3>, dist: real) returns (r: Cache)
    requires c.Valid()
    ensures r.Valid()
    ensures r.size == c.size + 1
    ensures r.Capacity() == if c.size == c.Capacity() then 2 * c.Capacity() else c.Capacity()
    ensures r.Entries() == c.Entries() + [Entry(path, dist)]
  {
    var slots := c.slots;
    if c.size >= c.Capacity() {
      slots := Reallocate(c);
    }
    var stored := StorePath(slots[c.size], path, dist);
    slots := slots[c.size := stored];
    r := Cache(slots, c.size + 1);
    assert r.Entries() == c.Entries() + [Entry(path, dist)] by {
      assert forall k | 0 <= k < c.size :: r.slots[k] == c.slots[k];
    }
  }

  /** Copy constructor and assignment of the planner's cache: same size and
      capacity, every entry copied. */
  method CopyCache(other: Cache) returns (r: Cache)
    requires other.Valid()
    ensures r == other
  {
    var buffer := new Entry[other.Capacity()](_ => EmptyEntry);
    var i := 0;
    while i < other.size
      invariant 0 <= i <= other.size
      invariant forall k | 0 <= k < i :: buffer[k] == other.slots[k]
      invariant forall k | other.size <= k < other.Capacity() :: buffer[k] == EmptyEntry
    {
      var copy := CopyEntry(other.slots[i]);
      buffer[i] := copy;
      i := i + 1;
    }
    r := Cache(buffer[..], other.size);
  }

  /** Inserting a batch of routes one by one: every earlier entry survives each
      reallocation and the new ones follow in order. */
  method AddAll(c: Cache, paths: seq<seq<Vector3>>, dists: seq<real>) returns (r: Cache)
    requires c.Valid()
    requires |paths| == |dists|
    ensures r.Valid()
    ensures r.size == c.size + |paths|
    ensures r.Capacity() >= r.size
    ensures r.Entries()[..c.size] == c.Entries()
    ensures forall k | 0 <= k < |paths| :: r.Entries()[c.size + k] == Entry(paths[k], dists[k])
  {
    r := c;
    var i := 0;
    while i < |paths|
      invariant 0 <= i <= |paths|
      invariant r.Valid()
      invariant r.size == c.size + i
      invariant r.Entries()[..c.size] == c.Entries()
      invariant forall k | 0 <= k < i :: r.Entries()[c.size + k] == Entry(paths[k], dists[k])
    {
      var next := AddToCache(r, paths[i], dists[i]);
      assert forall k | 0 <= k < r.size :: next.Entries()[k] == r.Entries()[k];
      r := next;
      i := i + 1;
    }
  }
}

=== FILE: drones.dfy ===
/** The drone (Drone.h): a vehicle that only moves while flying, drawing on its
    battery and accumulating distance, plus the delivery variant's payload limit.
 */
module Drones {
  import opened Geometry
  import opened Power

  datatype Drone = Drone(id: string, model: string, position: Vector3, velocity: Vector3, battery: Battery,
                         speed: real, totalDistance: real, flying: bool, missionCount: int)

  /** Speed used when the constructor is given none. */
  const DefaultSpeed := 2.0

  /** The state every constructor produces: landed at the origin with nothing flown. */
  predicate AtRest(d: Drone) {
    !d.flying && d.position == Origin && d.totalDistance == 0.0 && d.missionCount == 0
  }

  /** The full constructor: the given battery and speed. */
  function NewDroneWithBattery(id: string, model: string, battery: Battery, speed: real): (d: Drone)
    ensures AtRest(d)
    ensures d.id == id && d.model == model && d.battery == battery && d.speed == speed
  {
    Drone(id, model, Origin, Origin, battery, speed, 0.0, false, 0)
  }

  /** Identifier, model and speed given; the default battery. */
  function NewDrone(id: string, model: string, speed: real): (d: Drone)
    ensures AtRest(d)
    ensures d.battery == DefaultBattery() && d.battery.currentCharge == 100.0
    ensures d.id == id && d.model == model && d.speed == speed
  {
    NewDroneWithBattery(id, model, DefaultBattery(), speed)
  }

  /** The default constructor. */
  function DefaultDrone(): (d: Drone)
    ensures AtRest(d)
    ensures d.speed == DefaultSpeed && d.battery == DefaultBattery()
    ensures d.id == "DRN-001" && d.model == "Basic"
  {
    NewDrone("DRN-001", "Basic", DefaultSpeed)
  }

  /** Fly straight to `target`; a landed drone ignores the command. */
  function Move(d: Drone, target: Vector3, norm: Norm): (r: Drone)
    ensures !d.flying ==> r == d
    ensures d.flying ==> && r.position == target
                         && r.totalDistance == d.totalDistance + Distance(norm, d.position, target)
                         && r.battery == Consume(d.battery, Distance(norm, d.position, target))
    ensures r.totalDistance >= d.totalDistance
    ensures r.flying == d.flying && r.missionCount == d.missionCount && r.velocity == d.velocity
    ensures r.(position := d.position, totalDistance := d.totalDistance, battery := d.battery) == d
  {
    if !d.flying then d
    else
      var dist := Distance(norm, d.position, target);
      d.(battery := Consume(d.battery, dist), totalDistance := d.totalDistance + dist, position := target)
  }

  /** Take off, climbing to height 1 when lower. */
  function TakeOff(d: Drone): (r: Drone)
    ensures r.flying
    ensures r.position.x == d.position.x && r.position.y == d.position.y
    ensures r.position.z >= 1.0
    ensures d.position.z >= 1.0 ==> r.position == d.position
    ensures d.position.z < 1.0 ==> r.position.z == 1.0
    ensures r.(flying := d.flying, position := d.position) == d
    ensures r.totalDistance == d.totalDistance && r.battery == d.battery && r.missionCount == d.missionCount
  {
    var p := if d.position.z < 1.0 then d.position.(z := 1.0) else d.position;
    d.(flying := true, position := p)
  }

  /** Land straight down to height 0. */
  function Land(d: Drone): (r: Drone)
    ensures !r.flying
    ensures r.position == Vector3(d.position.x, d.position.y, 0.0)
    ensures r.(flying := d.flying, position := d.position) == d
    ensures r.totalDistance == d.totalDistance && r.battery == d.battery && r.missionCount == d.missionCount
  {
    d.(flying := false, position := d.position.(z := 0.0))
  }

  function Hover(d: Drone): (r: Drone)
    ensures r.velocity == Origin
    ensures r.position == d.position && r.flying == d.flying
    ensures r.(velocity := d.velocity) == d
  {
    d.(velocity := Origin)
  }

  function IncrementMission(d: Drone): (r: Drone)
    ensures r.missionCount == d.missionCount + 1
    ensures r.position == d.position && r.totalDistance == d.totalDistance && r.flying == d.flying
    ensures r.(missionCount := d.missionCount) == d
  {
    d.(missionCount := d.missionCount + 1)
  }

  function ResetDistance(d: Drone): (r: Drone)
    ensures r.totalDistance == 0.0
    ensures r.position == d.position && r.missionCount == d.missionCount && r.flying == d.flying
    ensures r.(totalDistance := d.totalDistance) == d
  {
    d.(totalDistance := 0.0)
  }

  /** A landed drone stays put whatever it is told. */
  lemma LandedMoveIsIgnored(d: Drone, targets: seq<Vector3>, norm: Norm)
    requires !d.flying
    ensures MoveAll(d, targets, norm) == d
  {
  }

  /** Moves one after another, as a flight along a route issues them. */
  function MoveAll(d: Drone, targets: seq<Vector3>, norm: Norm): Drone
    decreases |targets|
  {
    if |targets| == 0 then d else MoveAll(Move(d, targets[0], norm), targets[1..], norm)
  }

  /** Along a route the flown distance never decreases and a nonnegative charge stays nonnegative. */
  lemma {:induction false} MoveAllMonotone(d: Drone, targets: seq<Vector3>, norm: Norm)
    requires d.battery.currentCharge >= 0.0 && d.battery.consumptionRate >= 0.0
    ensures MoveAll(d, targets, norm).totalDistance >= d.totalDistance
    ensures MoveAll(d, targets, norm).battery.currentCharge <= d.battery.currentCharge
    ensures MoveAll(d, targets, norm).battery.currentCharge >= 0.0
    decreases |targets|
  {
    if |targets| > 0 {
      var next := Move(d, targets[0], norm);
      if d.flying {
        var dist := Distance(norm, d.position, targets[0]);
        assert dist * d.battery.consumptionRate >= 0.0;
      }
      MoveAllMonotone(next, targets[1..], norm);
    }
  }

  /** A move the battery was checked for leaves more than a tenth of capacity. */
  lemma MoveAfterCanTravel(d: Drone, target: Vector3, norm: Norm)
    requires d.flying
    requires CanTravel(d.battery, Distance(norm, d.position, target))
    ensures Move(d, target, norm).battery.currentCharge > d.battery.capacity * 0.1
  {
    CanTravelThenConsume(d.battery, Distance(norm, d.position, target));
  }

  /** The delivery variant: a base drone and a payload capped at its maximum. */
  datatype DeliveryDrone = DeliveryDrone(base: Drone, maxPayload: real, currentPayload: real)

  function NewDeliveryDrone(id: string): (d: DeliveryDrone)
    ensures AtRest(d.base)
    ensures d.maxPayload == 5.0 && d.currentPayload == 0.0
    ensures d.base.battery.capacity == 150.0 && d.base.battery.consumptionRate == 0.7
    ensures d.base.battery == NewBattery(150.0, 0.7, "Li-Ion HD") && d.base.battery.currentCharge == 150.0
    ensures d.base.id == id && d.base.model == "Delivery-D1" && d.base.speed == 2.5
  {
    DeliveryDrone(NewDroneWithBattery(id, "Delivery-D1", NewBattery(150.0, 0.7, "Li-Ion HD"), 2.5), 5.0, 0.0)
  }

  /** Load `weight`, clipped to the maximum payload. */
  function SetPayload(d: DeliveryDrone, weight: real): (r: DeliveryDrone)
    ensures r.currentPayload <= r.maxPayload
    ensures r.currentPayload == weight || r.currentPayload == r.maxPayload
    ensures weight <= d.maxPayload ==> r.currentPayload == weight
    ensures r.maxPayload == d.maxPayload && r.base == d.base
  {
    d.(currentPayload := if d.maxPayload < weight then d.maxPayload else weight)
  }
}

=== FILE: geometry.dfy ===
/** Points, vectors and box obstacles of the flight volume (Common.h).

    Coordinates are reals. The source's square roots (distanceTo, magnitude)
    are represented by one abstract nonnegative `Norm`; everything else is
    exact arithmetic on the components.
 */
module Geometry {

  /** A point or a displacement in three dimensions. */
  datatype Vector3 = Vector3(x: real, y: real, z: real)

  const Origin := Vector3(0.0, 0.0, 0.0)

  /** The Euclidean length of a vector. Only nonnegativity is assumed. */
  type Norm = f: Vector3 -> real | forall v :: f(v) >= 0.0 witness ZeroNorm

  function ZeroNorm(v: Vector3): real { 0.0 }

  function Add(a: Vector3, b: Vector3): Vector3 {
    Vector3(a.x + b.x, a.y + b.y, a.z + b.z)
  }

  function Sub(a: Vector3, b: Vector3): Vector3 {
    Vector3(a.x - b.x, a.y - b.y, a.z - b.z)
  }

  function Scale(v: Vector3, s: real): Vector3 {
    Vector3(v.x * s, v.y * s, v.z * s)
  }

  function Div(v: Vector3, s: real): Vector3
    requires s != 0.0
  {
    Vector3(v.x / s, v.y / s, v.z / s)
  }

  function Abs(r: real): real {
    if r < 0.0 then -r else r
  }

  /** The source's `operator==`: every component within 0.1. */
  predicate ApproxEq(a: Vector3, b: Vector3) {
    Abs(a.x - b.x) < 0.1 && Abs(a.y - b.y) < 0.1 && Abs(a.z - b.z) < 0.1
  }

  /** `a.distanceTo(b)`: the length of the difference. */
  function Distance(norm: Norm, a: Vector3, b: Vector3): (d: real)
    ensures d >= 0.0
  {
    norm(Sub(a, b))
  }

  /** Unit vector in the direction of `v`, or the zero vector when `v` has no length. */
  function Normalize(norm: Norm, v: Vector3): (u: Vector3)
    ensures norm(v) == 0.0 ==> u == Origin
    ensures norm(v) > 0.0 ==> Scale(u, norm(v)) == v
  {
    var mag := norm(v);
    if mag > 0.0 then Div(v, mag) else Origin
  }

  function Interpolate(start: Vector3, end: Vector3, t: real): Vector3 {
    Vector3(start.x + (end.x - start.x) * t,
            start.y + (end.y - start.y) * t,
            start.z + (end.z - start.z) * t)
  }

  /** Midpoint of `a` and `b`, raised by `elevationBoost`. */
  function SafeMidpoint(a: Vector3, b: Vector3, elevationBoost: real): Vector3 {
    Vector3((a.x + b.x) / 2.0, (a.y + b.y) / 2.0, (a.z + b.z) / 2.0 + elevationBoost)
  }

  lemma AddSubCancel(a: Vector3, b: Vector3)
    ensures Sub(Add(a, b), b) == a
    ensures Add(Sub(a, b), b) == a
  {
  }

  lemma ScaleDivCancel(v: Vector3, s: real)
    requires s != 0.0
    ensures Div(Scale(v, s), s) == v
    ensures Scale(Div(v, s), s) == v
  {
  }

  lemma ApproxEqReflexive(a: Vector3)
    ensures ApproxEq(a, a)
  {
  }

  lemma ApproxEqSymmetric(a: Vector3, b: Vector3)
    ensures ApproxEq(a, b) <==> ApproxEq(b, a)
  {
  }

  /** Approximate equality does not chain: three points 0.06 apart. */
  lemma ApproxEqNotTransitive()
    ensures exists a, b, c :: ApproxEq(a, b) && ApproxEq(b, c) && !ApproxEq(a, c)
  {
    var a := Origin;
    var b := Vector3(0.06, 0.0, 0.0);
    var c := Vector3(0.12, 0.0, 0.0);
    assert ApproxEq(a, b) && ApproxEq(b, c) && !ApproxEq(a, c);
  }

  lemma InterpolateEnds(start: Vector3, end: Vector3)
    ensures Interpolate(start, end, 0.0) == start
    ensures Interpolate(start, end, 1.0) == end
  {
  }

  /** The safe midpoint is the halfway interpolation lifted by the boost. */
  lemma SafeMidpointIsLiftedHalfway(a: Vector3, b: Vector3, elevationBoost: real)
    ensures SafeMidpoint(a, b, elevationBoost)
         == Add(Interpolate(a, b, 0.5), Vector3(0.0, 0.0, elevationBoost))
  {
  }

  /** An axis-aligned box: its low corner, extents along x, y and z, and a label. */
  datatype Obstacle = Obstacle(position: Vector3, length: real, width: real, height: real, kind: string)
  {
    /** The closed box grown by `margin` on every side contains `p`. */
    predicate ContainsPoint(p: Vector3, margin: real) {
      && position.x - margin <= p.x <= position.x + length + margin
      && position.y - margin <= p.y <= position.y + width + margin
      && position.z - margin <= p.z <= position.z + height + margin
    }

    function Center(): Vector3 {
      Vector3(position.x + length / 2.0, position.y + width / 2.0, position.z + height / 2.0)
    }

    /** Height of the obstacle's top face. */
    function Top(): real {
      position.z + height
    }

    predicate HasNonnegativeExtents() {
      length >= 0.0 && width >= 0.0 && height >= 0.0
    }
  }

  lemma ContainsPointMonotone(o: Obstacle, p: Vector3, m: real, m': real)
    requires m <= m'
    requires o.ContainsPoint(p, m)
    ensures o.ContainsPoint(p, m')
  {
  }

  lemma CenterIsContained(o: Obstacle, margin: real)
    requires o.HasNonnegativeExtents()
    requires margin >= 0.0
    ensures o.ContainsPoint(o.Center(), margin)
  {
  }
}

=== FILE: occupancy.dfy ===
/** The occupancy volume: a bounded box of space holding box obstacles (Map.h).

    It answers whether a point is blocked, whether a straight segment is clear
    when sampled at a fixed step, and how high a route must fly to pass over
    every obstacle.
 */
module Occupancy {
  import opened Geometry

  /** Extents are integers, as in the source; obstacles are kept in insertion order. */
  datatype Map3D = Map3D(width: int, depth: int, height: int, obstacles: seq<Obstacle>, name: string)

  /** The map built with every constructor argument left at its default. */
  const DefaultMap := Map3D(50, 30, 20, [], "Default City")

  /** Margin used when the caller does not give one, and by the segment test. */
  const DefaultMargin := 0.5

  /** Segments shorter than this are clear without any sampling. */
  const MinSegment := 0.01

  /** Clearance added above the highest obstacle top. */
  const AltitudeClearance := 2.0

  function AddObstacle(m: Map3D, o: Obstacle): (r: Map3D)
    ensures |r.obstacles| == |m.obstacles| + 1
    ensures r.obstacles[..|m.obstacles|] == m.obstacles
    ensures r.obstacles[|m.obstacles|] == o
    ensures r.width == m.width && r.depth == m.depth && r.height == m.height && r.name == m.name
  {
    m.(obstacles := m.obstacles + [o])
  }

  /** The eleven obstacles of the built-in city, in the order the source lists them. */
  const PredefinedObstacles: seq<Obstacle> := [
    Obstacle(Vector3(5.0, 5.0, 0.0), 4.0, 4.0, 12.0, "Tower A"),
    Obstacle(Vector3(15.0, 8.0, 0.0), 6.0, 5.0, 8.0, "Office Block"),
    Obstacle(Vector3(25.0, 3.0, 0.0), 3.0, 3.0, 15.0, "Radio Tower"),
    Obstacle(Vector3(35.0, 10.0, 0.0), 5.0, 4.0, 6.0, "Warehouse"),
    Obstacle(Vector3(10.0, 18.0, 0.0), 4.0, 6.0, 10.0, "Apartment"),
    Obstacle(Vector3(28.0, 18.0, 0.0), 7.0, 5.0, 7.0, "Mall"),
    Obstacle(Vector3(42.0, 5.0, 0.0), 4.0, 4.0, 9.0, "Hospital"),
    Obstacle(Vector3(20.0, 12.0, 0.0), 3.0, 3.0, 5.0, "Small Building"),
    Obstacle(Vector3(12.0, 3.0, 0.0), 1.0, 1.0, 4.0, "Tree"),
    Obstacle(Vector3(38.0, 20.0, 0.0), 1.0, 1.0, 3.0, "Tree"),
    Obstacle(Vector3(45.0, 15.0, 0.0), 1.0, 1.0, 4.0, "Tree")
  ]

  /** Replaces whatever obstacles the map held by the built-in city. */
  function LoadPredefinedMap(m: Map3D): (r: Map3D)
    ensures |r.obstacles| == 11
    ensures forall i | 0 <= i < |r.obstacles| :: r.obstacles[i].HasNonnegativeExtents()
    ensures r.width == m.width && r.depth == m.depth && r.height == m.height && r.name == m.name
  {
    m.(obstacles := PredefinedObstacles)
  }

  predicate InBounds(m: Map3D, p: Vector3) {
    && 0.0 <= p.x < m.width as real
    && 0.0 <= p.y < m.depth as real
    && 0.0 <= p.z < m.height as real
  }

  /** Some obstacle of `obs`, grown by `margin`, contains `p`; scanned front to back. */
  function AnyContains(obs: seq<Obstacle>, p: Vector3, margin: real): (b: bool)
    ensures b <==> exists i | 0 <= i < |obs| :: obs[i].ContainsPoint(p, margin)
  {
    if |obs| == 0 then false
    else if obs[0].ContainsPoint(p, margin) then true
    else
      var rest := AnyContains(obs[1..], p, margin);
      assert forall i | 1 <= i < |obs| :: obs[i] == obs[1..][i - 1];
      rest
  }

  /** A point is blocked when it lies outside the map or inside a grown obstacle. */
  function IsBlocked(m: Map3D, p: Vector3, margin: real): (b: bool)
    ensures !InBounds(m, p) ==> b
    ensures InBounds(m, p) ==>
              (b <==> exists i | 0 <= i < |m.obstacles| :: m.obstacles[i].ContainsPoint(p, margin))
  {
    !InBounds(m, p) || AnyContains(m.obstacles, p, margin)
  }

  /** Index of the last sample taken on a segment of length `dist`. */
  function SampleBound(dist: real, step: real): int
    requires step > 0.0
  {
    (dist / step).Floor
  }

  /** The k-th sample along the unit direction `unit`, at distance k * step from `from`. */
  function SamplePoint(from: Vector3, unit: Vector3, step: real, k: int): Vector3 {
    Add(from, Scale(unit, k as real * step))
  }

  /** The segment test: short segments are clear; longer ones are clear when no
      sample at distances 0, step, 2 step, ... up to the length is blocked. */
  predicate PathClear(m: Map3D, norm: Norm, from: Vector3, to: Vector3, step: real)
    requires step > 0.0
  {
    var dir := Sub(to, from);
    var dist := norm(dir);
    dist < MinSegment ||
    var unit := Normalize(norm, dir);
    forall k | 0 <= k <= SampleBound(dist, step) :: !IsBlocked(m, SamplePoint(from, unit, step, k), DefaultMargin)
  }

  /** A sample distance `k * step` is within the segment exactly when `k` is at most the bound. */
  lemma SampleWithinSegment(k: int, dist: real, step: real)
    requires step > 0.0
    ensures k as real * step <= dist <==> k <= SampleBound(dist, step)
  {
    var q := dist / step;
    var f := q.Floor;
    assert q * step == dist;
    assert f as real <= q < f as real + 1.0;
    if k as real * step <= dist {
      if k as real > q {
        MultiplyStrict(q, k as real, step);
      }
      assert k < f + 1;
    }
    if k <= f {
      MultiplyWeak(k as real, q, step);
    }
  }

  lemma MultiplyStrict(a: real, b: real, c: real)
    requires a < b && c > 0.0
    ensures a * c < b * c
  {
  }

  lemma MultiplyWeak(a: real, b: real, c: real)
    requires a <= b && c > 0.0
    ensures a * c <= b * c
  {
  }

  /** The source's sampling loop: advance `t` by `step` while it stays within the segment. */
  method ScanPathClear(m: Map3D, norm: Norm, from: Vector3, to: Vector3, step: real) returns (clear: bool)
    requires step > 0.0
    ensures clear == PathClear(m, norm, from, to, step)
    ensures norm(Sub(to, from)) < MinSegment ==> clear
    ensures norm(Sub(to, from)) >= MinSegment && IsBlocked(m, from, DefaultMargin) ==> !clear
  {
    var dir := Sub(to, from);
    var dist := norm(dir);
    if dist < MinSegment {
      return true;
    }
    var unitDir := Normalize(norm, dir);
    assert SamplePoint(from, unitDir, step, 0) == from;
    SampleWithinSegment(0, dist, step);
    var t := 0.0;
    ghost var k := 0;
    while t <= dist
      invariant t == k as real * step
      invariant 0 <= k <= SampleBound(dist, step) + 1
      invariant forall j | 0 <= j < k :: !IsBlocked(m, SamplePoint(from, unitDir, step, j), DefaultMargin)
      decreases SampleBound(dist, step) + 1 - k
    {
      SampleWithinSegment(k, dist, step);
      var point := Add(from, Scale(unitDir, t));
      assert point == SamplePoint(from, unitDir, step, k);
      if IsBlocked(m, point, DefaultMargin) {
        return false;
      }
      t := t + step;
      k := k + 1;
    }
    SampleWithinSegment(k, dist, step);
    return true;
  }

  /** Highest obstacle top, or 0 when every top is lower; scanned front to back. */
  function MaxTop(obs: seq<Obstacle>): (h: real)
    ensures h >= 0.0
    ensures forall i | 0 <= i < |obs| :: obs[i].Top() <= h
    ensures h == 0.0 || exists i | 0 <= i < |obs| :: h == obs[i].Top()
  {
    if |obs| == 0 then 0.0
    else
      var prev := MaxTop(obs[..|obs| - 1]);
      assert forall i | 0 <= i < |obs| - 1 :: obs[..|obs| - 1][i] == obs[i];
      var top := obs[|obs| - 1].Top();
      if top > prev then top else prev
  }

  /** Altitude at which a route clears every obstacle by the fixed margin. */
  function SafeAltitude(m: Map3D): (alt: real)
    ensures alt >= AltitudeClearance
    ensures forall i | 0 <= i < |m.obstacles| :: alt >= m.obstacles[i].Top() + AltitudeClearance
    ensures alt == AltitudeClearance
         || exists i | 0 <= i < |m.obstacles| :: alt == m.obstacles[i].Top() + AltitudeClearance
  {
    MaxTop(m.obstacles) + AltitudeClearance
  }

  /** Adding an obstacle never unblocks a point, and blocks every in-bounds point it contains. */
  lemma AddObstacleBlocks(m: Map3D, o: Obstacle, p: Vector3, margin: real)
    ensures IsBlocked(m, p, margin) ==> IsBlocked(AddObstacle(m, o), p, margin)
    ensures o.ContainsPoint(p, margin) ==> IsBlocked(AddObstacle(m, o), p, margin)
  {
    var r := AddObstacle(m, o);
    if InBounds(m, p) && IsBlocked(m, p, margin) {
      var i :| 0 <= i < |m.obstacles| && m.obstacles[i].ContainsPoint(p, margin);
      assert r.obstacles[i] == m.obstacles[i];
    }
    if InBounds(m, p) && o.ContainsPoint(p, margin) {
      assert r.obstacles[|m.obstacles|] == o;
    }
  }

  /** Adding an obstacle raises the safe altitude to its top plus clearance, if that is higher. */
  lemma AddObstacleSafeAltitude(m: Map3D, o: Obstacle)
    ensures SafeAltitude(AddObstacle(m, o))
         == if o.Top() > MaxTop(m.obstacles) then o.Top() + AltitudeClearance else SafeAltitude(m)
  {
    assert AddObstacle(m, o).obstacles[..|m.obstacles|] == m.obstacles;
  }

  /** Over the built-in city, routes fly at the radio tower's top (15) plus 2. */
  lemma PredefinedSafeAltitude(m: Map3D)
    ensures SafeAltitude(LoadPredefinedMap(m)) == 17.0
  {
    var obs := PredefinedObstacles;
    forall i | 0 <= i < |obs|
      ensures obs[i].Top() <= 15.0
    {
      if i < 6 {
        assert i == 0 || i == 1 || i == 2 || i == 3 || i == 4 || i == 5;
      } else {
        assert i == 6 || i == 7 || i == 8 || i == 9 || i == 10;
      }
    }
    MaxTopIs(obs, 15.0, 2);
  }

  /** A value that bounds every top and is some obstacle's top is the highest top. */
  lemma MaxTopIs(obs: seq<Obstacle>, c: real, j: int)
    requires 0 <= j < |obs| && obs[j].Top() == c && c >= 0.0
    requires forall i | 0 <= i < |obs| :: obs[i].Top() <= c
    ensures MaxTop(obs) == c
  {
  }

  /** Every sample of the segment test lies between the segment's endpoints on each axis. */
  lemma SampleOnSegment(norm: Norm, from: Vector3, to: Vector3, step: real, k: int)
    requires step > 0.0
    requires norm(Sub(to, from)) >= MinSegment
    requires 0 <= k <= SampleBound(norm(Sub(to, from)), step)
    ensures var p := SamplePoint(from, Normalize(norm, Sub(to, from)), step, k);
            && Between(from.x, to.x, p.x) && Between(from.y, to.y, p.y) && Between(from.z, to.z, p.z)
  {
    var d := norm(Sub(to, from));
    var t := k as real * step;
    SampleWithinSegment(k, d, step);
    assert Normalize(norm, Sub(to, from)) == Div(Sub(to, from), d);
    ComponentBetween(from.x, to.x, d, t);
    ComponentBetween(from.y, to.y, d, t);
    ComponentBetween(from.z, to.z, d, t);
  }

  predicate Between(a: real, b: real, c: real) {
    (a <= c <= b) || (b <= c <= a)
  }

  /** Advancing `t` of the way `d` along the unit direction from `a` towards `b` stays between them. */
  lemma ComponentBetween(a: real, b: real, d: real, t: real)
    requires d > 0.0 && 0.0 <= t <= d
    ensures Between(a, b, a + ((b - a) / d) * t)
  {
    var s := t / d;
    MultiplyWeak(t, d, 1.0 / d);
    assert 0.0 <= s <= 1.0;
    assert ((b - a) / d) * t == (b - a) * s;
    if a < b {
      MultiplyWeak(0.0, s, b - a);
      MultiplyWeak(s, 1.0, b - a);
    } else if b < a {
      MultiplyWeak(0.0, s, a - b);
      MultiplyWeak(s, 1.0, a - b);
    }
  }

  /** In a map without obstacles every segment between two in-bounds points is clear. */
  lemma ClearWithoutObstacles(m: Map3D, norm: Norm, from: Vector3, to: Vector3, step: real)
    requires step > 0.0
    requires |m.obstacles| == 0
    requires InBounds(m, from) && InBounds(m, to)
    ensures PathClear(m, norm, from, to, step)
  {
    var dir := Sub(to, from);
    var d := norm(dir);
    if d >= MinSegment {
      var unit := Normalize(norm, dir);
      forall k | 0 <= k <= SampleBound(d, step)
        ensures !IsBlocked(m, SamplePoint(from, unit, step, k), DefaultMargin)
      {
        SampleOnSegment(norm, from, to, step, k);
      }
    }
  }
}

=== FILE: planner.dfy ===
/** The 3D path finder (PathFinder3D in PathFinder.h): a direct route when the
    straight segment is clear, otherwise a bounded A* search whose route is
    smoothed, otherwise a fly-over at the safe altitude; every answer is
    appended to the path cache.
 */
module Planner {
  import opened Geometry
  import opened Occupancy
  import opened Caching
  import opened Smoothing
  import opened Search

  /** What the planner asks of the occupancy volume it references but does not own. */
  datatype Volume = Volume(blocked: Vector3 -> bool, clear: (Vector3, Vector3) -> bool, safeAltitude: real)

  /** Step along a segment used by the segment test when the caller gives none. */
  const SegmentStep := 0.5

  /** The volume answers of a concrete map, with the margins and step the planner uses. */
  function MapVolume(m: Map3D, norm: Norm): (v: Volume)
    ensures forall p :: v.blocked(p) <==>
              !InBounds(m, p) || exists i | 0 <= i < |m.obstacles| :: m.obstacles[i].ContainsPoint(p, 0.5)
    ensures forall a, b :: v.clear(a, b) <==> PathClear(m, norm, a, b, 0.5)
    ensures v.safeAltitude == SafeAltitude(m)
  {
    Volume(p => IsBlocked(m, p, DefaultMargin),
           (a, b) => PathClear(m, norm, a, b, SegmentStep),
           SafeAltitude(m))
  }

  /** The planner's own state: lattice spacing and cache. */
  datatype PathFinder3D = PathFinder3D(gridStep: real, cache: Cache)

  /** Grid step used when the constructor is given none. */
  const DefaultGridStep := 1.0

  /** Constructor: the given grid step and an empty cache of ten slots. */
  function NewPathFinder(step: real): (f: PathFinder3D)
    ensures f.gridStep == step
    ensures f.cache.Valid() && f.cache.Entries() == [] && f.cache.Capacity() == InitialCapacity
  {
    PathFinder3D(step, NewCache())
  }

  /** The constructor with the grid step left at its default. */
  function DefaultPathFinder(): (f: PathFinder3D)
    ensures f.gridStep == 1.0
    ensures f.cache.Valid() && f.cache.Entries() == [] && f.cache.Capacity() == InitialCapacity
  {
    NewPathFinder(DefaultGridStep)
  }

  /** Copy constructor and assignment: a planner with its own copy of every cache entry. */
  method CopyPathFinder(other: PathFinder3D) returns (r: PathFinder3D)
    requires other.cache.Valid()
    ensures r == other
  {
    var cache := CopyCache(other.cache);
    r := PathFinder3D(other.gridStep, cache);
  }

  /** Sum of the distances between consecutive waypoints, accumulated front to back. */
  function PathLength(norm: Norm, path: seq<Vector3>): real {
    if |path| < 2 then 0.0
    else PathLength(norm, path[..|path| - 1]) + Distance(norm, path[|path| - 2], path[|path| - 1])
  }

  lemma {:induction false} PathLengthNonnegative(norm: Norm, path: seq<Vector3>)
    ensures PathLength(norm, path) >= 0.0
    ensures |path| < 2 ==> PathLength(norm, path) == 0.0
    decreases |path|
  {
    if |path| >= 2 {
      PathLengthNonnegative(norm, path[..|path| - 1]);
    }
  }

  /** The length of a two-point route is the distance between its points. */
  lemma DirectPathLength(norm: Norm, a: Vector3, b: Vector3)
    ensures PathLength(norm, [a, b]) == Distance(norm, a, b)
  {
    assert [a, b][..1] == [a];
  }

  /** `calculatePathDistance`: the source's accumulation loop. */
  method CalculatePathDistance(norm: Norm, path: seq<Vector3>) returns (total: real)
    ensures total == PathLength(norm, path)
    ensures total >= 0.0
  {
    total := 0.0;
    var i := 1;
    while i < |path|
      invariant 1 <= i <= if |path| == 0 then 1 else |path|
      invariant total == PathLength(norm, path[..if |path| == 0 then 0 else i])
    {
      assert path[..i + 1][..i] == path[..i];
      total := total + Distance(norm, path[i - 1], path[i]);
      i := i + 1;
    }
    if |path| > 0 {
      assert path[..|path|] == path;
    }
    PathLengthNonnegative(norm, path);
  }

  /** Which branch of `findPath` produced the route; the source conveys it only by the route's shape. */
  datatype Outcome = Direct | Searched | FlyOver

  /** The part of `findPath` after the direct test fails: the smoothed search route when the
      search reaches the goal, otherwise the fly-over at the safe altitude. */
  method SearchOrFlyOver(gridStep: real, vol: Volume, norm: Norm, start: Vector3, end: Vector3, linking: Linking)
    returns (path: seq<Vector3>, outcome: Outcome)
    ensures |path| >= 2 && path[0] == start && path[|path| - 1] == end
    ensures outcome != Direct
    ensures Distance(norm, start, end) < gridStep * GoalRadius ==> outcome == Searched
    ensures outcome == Searched ==>
              exists raw :: && |raw| >= 2 && raw[0] == start && raw[|raw| - 1] == end
                            && (exists p :: ApproxEq(raw[|raw| - 2], p) && Distance(norm, p, end) < gridStep * GoalRadius)
                            && (linking == PoppedNode ==> LatticeRoute(raw, gridStep, vol.blocked))
                            && path == Smooth(raw, vol.clear)
    ensures outcome == FlyOver ==>
              path == [start, Vector3(start.x, start.y, vol.safeAltitude),
                       Vector3(end.x, end.y, vol.safeAltitude), end]
  {
    var raw, _ := SearchLoop(start, end, gridStep, norm, vol.blocked, linking);
    if raw.Some? {
      path := SmoothPath(raw.value, vol.clear);
      SmoothEnds(raw.value, vol.clear);
      outcome := Searched;
    } else {
      var safeAlt := vol.safeAltitude;
      path := [start, Vector3(start.x, start.y, safeAlt), Vector3(end.x, end.y, safeAlt), end];
      outcome := FlyOver;
    }
  }

  /** `findPath`: direct route, smoothed search result, or fly-over; the answer is
      appended to the cache with its length. `LastAppended` is the search as written,
      `PoppedNode` the corrected one, whose raw route walks the lattice. */
  method FindPath(finder: PathFinder3D, vol: Volume, norm: Norm, start: Vector3, end: Vector3, linking: Linking)
    returns (path: seq<Vector3>, r: PathFinder3D, outcome: Outcome)
    requires finder.cache.Valid()
    ensures r.gridStep == finder.gridStep
    ensures r.cache.Valid()
    ensures r.cache.Entries() == finder.cache.Entries() + [Entry(path, PathLength(norm, path))]
    ensures |path| >= 2 && path[0] == start && path[|path| - 1] == end
    ensures outcome == Direct <==> vol.clear(start, end)
    ensures outcome == Direct ==> path == [start, end]
    ensures !vol.clear(start, end) && Distance(norm, start, end) < finder.gridStep * GoalRadius ==> outcome == Searched
    ensures outcome == Searched ==>
              exists raw :: && |raw| >= 2 && raw[0] == start && raw[|raw| - 1] == end
                            && (exists p :: ApproxEq(raw[|raw| - 2], p) && Distance(norm, p, end) < finder.gridStep * GoalRadius)
                            && (linking == PoppedNode ==> LatticeRoute(raw, finder.gridStep, vol.blocked))
                            && path == Smooth(raw, vol.clear)
    ensures outcome == FlyOver ==>
              path == [start, Vector3(start.x, start.y, vol.safeAltitude),
                       Vector3(end.x, end.y, vol.safeAltitude), end]
  {
    if vol.clear(start, end) {
      path := [start, end];
      var dist := Distance(norm, start, end);
      DirectPathLength(norm, start, end);
      var cache := AddToCache(finder.cache, path, dist);
      return path, PathFinder3D(finder.gridStep, cache), Direct;
    }
    path, outcome := SearchOrFlyOver(finder.gridStep, vol, norm, start, end, linking);
    var dist := CalculatePathDistance(norm, path);
    var cache := AddToCache(finder.cache, path, dist);
    r := PathFinder3D(finder.gridStep, cache);
  }

  /** Over a map without obstacles, any two in-bounds points are joined directly. */
  lemma EmptyMapIsDirect(m: Map3D, norm: Norm, start: Vector3, end: Vector3)
    requires |m.obstacles| == 0
    requires InBounds(m, start) && InBounds(m, end)
    ensures MapVolume(m, norm).clear(start, end)
    ensures MapVolume(m, norm).safeAltitude == AltitudeClearance
  {
    ClearWithoutObstacles(m, norm, start, end, SegmentStep);
  }

  /** The default map holds no obstacles, so any two of its in-bounds points are joined directly. */
  lemma DefaultMapIsOpen(norm: Norm, start: Vector3, end: Vector3)
    requires InBounds(DefaultMap, start) && InBounds(DefaultMap, end)
    ensures MapVolume(DefaultMap, norm).clear(start, end)
    ensures MapVolume(DefaultMap, norm).safeAltitude == AltitudeClearance
  {
    EmptyMapIsDirect(DefaultMap, norm, start, end);
  }

  /** A fly-over leg lies above every obstacle of the map by more than any margin below the clearance. */
  lemma FlyOverAboveObstacles(m: Map3D, norm: Norm, p: Vector3, margin: real)
    requires p.z == MapVolume(m, norm).safeAltitude
    requires margin < AltitudeClearance
    ensures forall i | 0 <= i < |m.obstacles| :: !m.obstacles[i].ContainsPoint(p, margin)
  {
  }
}

=== FILE: power.dfy ===
/** The drone battery (Battery.h): charge drained in proportion to distance,
    never below zero, refilled to capacity, and classified against fixed
    fractions of capacity.
 */
module Power {

  datatype Battery = Battery(capacity: real, currentCharge: real, consumptionRate: real, batteryType: string)

  /** Consumption per unit of distance and label used by the shorter constructors. */
  const DefaultRate := 0.5
  const DefaultType := "Li-Ion"

  /** The three-argument constructor: a full battery. */
  function NewBattery(capacity: real, rate: real, batteryType: string): (b: Battery)
    ensures b.capacity == capacity && b.consumptionRate == rate && b.batteryType == batteryType
    ensures b.currentCharge == b.capacity
  {
    Battery(capacity, capacity, rate, batteryType)
  }

  /** The one-argument constructor. */
  function BatteryOfCapacity(capacity: real): (b: Battery)
    ensures b.currentCharge == b.capacity == capacity
    ensures b.consumptionRate == 0.5 && b.batteryType == "Li-Ion"
  {
    NewBattery(capacity, DefaultRate, DefaultType)
  }

  /** The default constructor: 100 units. */
  function DefaultBattery(): (b: Battery)
    ensures b.currentCharge == b.capacity == 100.0
    ensures b.consumptionRate == 0.5 && b.batteryType == "Li-Ion"
  {
    NewBattery(100.0, DefaultRate, DefaultType)
  }

  /** Drain `distance * rate`, stopping at zero. */
  function Consume(b: Battery, distance: real): (r: Battery)
    ensures r.currentCharge >= 0.0
    ensures r.currentCharge >= b.currentCharge - distance * b.consumptionRate
    ensures r.currentCharge == 0.0 || r.currentCharge == b.currentCharge - distance * b.consumptionRate
    ensures distance * b.consumptionRate >= 0.0 && b.currentCharge >= 0.0 ==> r.currentCharge <= b.currentCharge
    ensures r.capacity == b.capacity && r.consumptionRate == b.consumptionRate && r.batteryType == b.batteryType
  {
    var consumption := distance * b.consumptionRate;
    var remaining := b.currentCharge - consumption;
    b.(currentCharge := if 0.0 > remaining then 0.0 else remaining)
  }

  function Recharge(b: Battery): (r: Battery)
    ensures r.currentCharge == r.capacity
    ensures r.capacity == b.capacity && r.consumptionRate == b.consumptionRate && r.batteryType == b.batteryType
  {
    b.(currentCharge := b.capacity)
  }

  predicate IsLow(b: Battery) {
    b.currentCharge < b.capacity * 0.2
  }

  /** Status label: the first threshold the charge exceeds decides. */
  function Status(b: Battery): (s: string)
    ensures s in {"Good", "Moderate", "Low", "Critical"}
    ensures s == "Good" <==> b.currentCharge > b.capacity * 0.6
    ensures s == "Moderate" <==> b.capacity * 0.3 < b.currentCharge <= b.capacity * 0.6
    ensures s == "Low" <==> b.capacity * 0.1 < b.currentCharge <= b.capacity * 0.3 && b.currentCharge <= b.capacity * 0.6
    ensures s == "Critical" <==> b.currentCharge <= b.capacity * 0.1 && b.currentCharge <= b.capacity * 0.3
                                 && b.currentCharge <= b.capacity * 0.6
  {
    if b.currentCharge > b.capacity * 0.6 then "Good"
    else if b.currentCharge > b.capacity * 0.3 then "Moderate"
    else if b.currentCharge > b.capacity * 0.1 then "Low"
    else "Critical"
  }

  /** Charge as a percentage of capacity. */
  function Percentage(b: Battery): real
    requires b.capacity != 0.0
  {
    (b.currentCharge / b.capacity) * 100.0
  }

  /** Enough charge for `distance` with more than a tenth of capacity to spare. */
  predicate CanTravel(b: Battery, distance: real) {
    b.currentCharge - distance * b.consumptionRate > b.capacity * 0.1
  }

  /** A battery that can make a trip still holds more than a tenth of capacity after it. */
  lemma CanTravelThenConsume(b: Battery, distance: real)
    requires CanTravel(b, distance)
    ensures Consume(b, distance).currentCharge > b.capacity * 0.1
  {
  }

  /** A new or recharged battery reads 100 percent. */
  lemma FullBatteryPercentage(b: Battery, capacity: real, rate: real, batteryType: string)
    requires capacity != 0.0 && b.capacity != 0.0
    ensures Percentage(NewBattery(capacity, rate, batteryType)) == 100.0
    ensures Percentage(Recharge(b)) == 100.0
  {
    assert capacity / capacity == 1.0;
    assert b.capacity / b.capacity == 1.0;
  }

  /** The low-charge warning and the status label agree: a low battery is labelled
      "Low" or "Critical", and a "Critical" one is always low. */
  lemma LowMatchesStatus(b: Battery)
    requires b.capacity > 0.0
    ensures IsLow(b) ==> Status(b) == "Low" || Status(b) == "Critical"
    ensures Status(b) == "Critical" ==> IsLow(b)
  {
  }

  /** The low-charge warning fires exactly below twenty percent. */
  lemma LowBelowTwentyPercent(b: Battery)
    requires b.capacity > 0.0
    ensures IsLow(b) <==> Percentage(b) < 20.0
  {
    var f := b.currentCharge / b.capacity;
    assert b.currentCharge == f * b.capacity;
    assert IsLow(b) <==> f * b.capacity < 0.2 * b.capacity;
    if f < 0.2 {
      assert f * b.capacity < 0.2 * b.capacity;
    } else {
      assert f * b.capacity >= 0.2 * b.capacity;
    }
  }

  /** A full battery of positive capacity is "Good" and not low. */
  lemma FullBatteryIsGood(b: Battery)
    requires b.capacity > 0.0
    ensures Status(Recharge(b)) == "Good"
    ensures !IsLow(Recharge(b))
  {
  }

  /** The high-capacity variant: a base battery and a fast-charge flag. */
  datatype HighCapacityBattery = HighCapacityBattery(base: Battery, fastChargeEnabled: bool)

  const FastChargeSuffix := " [Fast-Charge Ready]"

  function NewHighCapacityBattery(): (h: HighCapacityBattery)
    ensures h.base.currentCharge == h.base.capacity == 200.0
    ensures h.base.consumptionRate == 0.4 && h.base.batteryType == "Li-Po High-Cap"
    ensures h.fastChargeEnabled
  {
    HighCapacityBattery(NewBattery(200.0, 0.4, "Li-Po High-Cap"), true)
  }

  /** The base label, followed by the fast-charge note when the flag is set. */
  function HighCapacityStatus(h: HighCapacityBattery): (s: string)
    ensures |s| >= |Status(h.base)| && s[..|Status(h.base)|] == Status(h.base)
    ensures h.fastChargeEnabled ==> s[|Status(h.base)|..] == FastChargeSuffix
    ensures !h.fastChargeEnabled ==> s == Status(h.base)
  {
    Status(h.base) + (if h.fastChargeEnabled then FastChargeSuffix else "")
  }

  lemma NewHighCapacityStatus()
    ensures HighCapacityStatus(NewHighCapacityBattery()) == "Good [Fast-Charge Ready]"
  {
  }
}

=== FILE: search.dfy ===
/** The bounded A* search of PathFinder3D (PathFinder.h): search nodes, the
    26-neighbourhood of a lattice point, node expansion, and reconstruction of
    the raw route from parent links.

    The occupancy test is a parameter. The open set is a sequence and a pop
    takes the first node of least total cost; the source leaves ties to its
    priority queue.
 */
module Search {
  import opened Geometry

  datatype Option<T> = None | Some(value: T)

  /** A visited lattice position: cost so far, estimate to go, and the index of
      its parent in the list of all nodes (-1 for the start node). */
  datatype PathNode = PathNode(pos: Vector3, gCost: real, hCost: real, parentIdx: int)
  {
    function FCost(): real {
      gCost + hCost
    }
  }

  /** Hard ceiling on the number of pops. */
  const MaxIterations := 10000

  /** A node closer to the goal than this many grid steps is accepted. */
  const GoalRadius := 1.5

  /** The C++ conversion of a double to int: truncation toward zero. */
  function Truncate(r: real): (n: int)
    ensures 0.0 <= r ==> 0 <= n && n as real <= r < n as real + 1.0
    ensures r < 0.0 ==> n <= 0 && n as real - 1.0 < r <= n as real
  {
    if r >= 0.0 then r.Floor else -((-r).Floor)
  }

  /** Closed-set key of a position: its coordinates truncated to integers. */
  datatype Key = Key(x: int, y: int, z: int)

  function PosKey(v: Vector3): Key {
    Key(Truncate(v.x), Truncate(v.y), Truncate(v.z))
  }

  /** A lattice direction: one of -1, 0, 1 along each axis. */
  datatype Offset = Offset(dx: int, dy: int, dz: int)

  predicate IsUnitOffset(o: Offset) {
    && -1 <= o.dx <= 1 && -1 <= o.dy <= 1 && -1 <= o.dz <= 1
    && o != Offset(0, 0, 0)
  }

  /** The n-th combination of the three nested loops (dx outermost, dz innermost). */
  function OffsetAt(n: int): Offset {
    Offset(n / 9 - 1, (n / 3) % 3 - 1, n % 3 - 1)
  }

  /** Loop position of a direction; the zero direction sits at position 13. */
  function OffsetCode(o: Offset): int {
    (o.dx + 1) * 9 + (o.dy + 1) * 3 + (o.dz + 1)
  }

  /** Loop position of the k-th generated direction: the zero direction at position 13 is skipped. */
  function LoopPosition(k: int): int {
    if k < 13 then k else k + 1
  }

  /** The 26 directions in the order the source's loops produce them. */
  function Offsets(): seq<Offset> {
    seq(26, k => OffsetAt(LoopPosition(k)))
  }

  lemma OffsetAtCode(n: int)
    requires 0 <= n < 27
    ensures OffsetCode(OffsetAt(n)) == n
    ensures IsUnitOffset(OffsetAt(n)) <==> n != 13
  {
    assert n == 9 * (n / 9) + 3 * ((n / 3) % 3) + n % 3;
  }

  lemma CodeOffsetAt(o: Offset)
    requires -1 <= o.dx <= 1 && -1 <= o.dy <= 1 && -1 <= o.dz <= 1
    ensures 0 <= OffsetCode(o) < 27
    ensures OffsetAt(OffsetCode(o)) == o
  {
  }

  /** The generated directions are exactly the 26 nonzero unit offsets. */
  lemma OffsetsAreUnitOffsets()
    ensures |Offsets()| == 26
    ensures forall o :: o in Offsets() <==> IsUnitOffset(o)
  {
    forall o
      ensures o in Offsets() <==> IsUnitOffset(o)
    {
      if o in Offsets() {
        var k :| 0 <= k < 26 && Offsets()[k] == o;
        OffsetAtCode(LoopPosition(k));
      }
      if IsUnitOffset(o) {
        CodeOffsetAt(o);
        var c := OffsetCode(o);
        OffsetAtCode(c);
        var k := if c < 13 then c else c - 1;
        assert Offsets()[k] == o;
      }
    }
  }

  /** `pos` moved by `o` grid steps. */
  function Shift(pos: Vector3, o: Offset, step: real): Vector3 {
    Vector3(pos.x + o.dx as real * step, pos.y + o.dy as real * step, pos.z + o.dz as real * step)
  }

  /** The shifted positions for `offsets` that are not blocked, in order. */
  function Unblocked(pos: Vector3, step: real, blocked: Vector3 -> bool, offsets: seq<Offset>): (r: seq<Vector3>)
    ensures |r| <= |offsets|
    ensures forall q :: q in r <==> exists k | 0 <= k < |offsets| :: q == Shift(pos, offsets[k], step) && !blocked(q)
  {
    if |offsets| == 0 then []
    else
      var q := Shift(pos, offsets[0], step);
      var rest := Unblocked(pos, step, blocked, offsets[1..]);
      assert forall k | 1 <= k < |offsets| :: offsets[k] == offsets[1..][k - 1];
      if blocked(q) then rest else [q] + rest
  }

  /** `getNeighbors`: the unblocked lattice points one step away in each of the 26 directions. */
  function Neighbors(pos: Vector3, step: real, blocked: Vector3 -> bool): (r: seq<Vector3>)
    ensures |r| <= 26
    ensures forall q :: q in r <==> exists o :: IsUnitOffset(o) && q == Shift(pos, o, step) && !blocked(q)
  {
    OffsetsAreUnitOffsets();
    Unblocked(pos, step, blocked, Offsets())
  }

  /** Index of the first node of least total cost: the node the open set pops. */
  function MinIndex(open: seq<PathNode>): (k: int)
    requires |open| > 0
    ensures 0 <= k < |open|
    ensures forall i | 0 <= i < |open| :: open[k].FCost() <= open[i].FCost()
    ensures forall i | 0 <= i < k :: open[k].FCost() < open[i].FCost()
  {
    if |open| == 1 then 0
    else
      var k := MinIndex(open[..|open| - 1]);
      assert forall i | 0 <= i < |open| - 1 :: open[..|open| - 1][i] == open[i];
      if open[|open| - 1].FCost() < open[k].FCost() then |open| - 1 else k
  }

  /** First index from `from` on whose position approximately equals `pos`, or `|nodes|`. */
  function FirstMatch(nodes: seq<PathNode>, pos: Vector3, from: int): (k: int)
    requires 0 <= from <= |nodes|
    ensures from <= k <= |nodes|
    ensures k < |nodes| ==> ApproxEq(nodes[k].pos, pos)
    ensures forall i | from <= i < k :: !ApproxEq(nodes[i].pos, pos)
    decreases |nodes| - from
  {
    if from == |nodes| then from
    else if ApproxEq(nodes[from].pos, pos) then from
    else FirstMatch(nodes, pos, from + 1)
  }

  /** The node the reconstruction starts from: the first node near the goal
      position, or the last node when none is. */
  function GoalIndex(nodes: seq<PathNode>, pos: Vector3): (k: int)
    requires |nodes| > 0
    ensures 0 <= k < |nodes|
    ensures forall i | 0 <= i < k :: !ApproxEq(nodes[i].pos, pos)
    ensures ApproxEq(nodes[k].pos, pos) || (k == |nodes| - 1 && !ApproxEq(nodes[k].pos, pos))
  {
    var m := FirstMatch(nodes, pos, 0);
    if m < |nodes| then m else |nodes| - 1
  }

  /** Parent links point strictly backwards, ending at the start node at index 0. */
  ghost predicate WellLinked(nodes: seq<PathNode>) {
    && |nodes| >= 1
    && nodes[0].parentIdx == -1
    && forall i | 0 < i < |nodes| :: 0 <= nodes[i].parentIdx < i
  }

  /** `q` is one grid step from `p` in one of the 26 directions. */
  ghost predicate LatticeStep(p: Vector3, q: Vector3, step: real) {
    exists o :: IsUnitOffset(o) && q == Shift(p, o, step)
  }

  /** Every node but the start is an unblocked lattice neighbour of its parent. */
  ghost predicate LatticeLinked(nodes: seq<PathNode>, step: real, blocked: Vector3 -> bool) {
    forall i | 0 < i < |nodes| && 0 <= nodes[i].parentIdx < |nodes| ::
      LatticeStep(nodes[nodes[i].parentIdx].pos, nodes[i].pos, step) && !blocked(nodes[i].pos)
  }

  /** Leg `k` of a route is one grid step and ends on an unblocked point. */
  ghost predicate LatticeLeg(route: seq<Vector3>, k: int, step: real, blocked: Vector3 -> bool)
    requires 0 <= k < |route| - 1
  {
    LatticeStep(route[k], route[k + 1], step) && !blocked(route[k + 1])
  }

  /** Up to the appended goal point, a route moves one grid step at a time through unblocked points. */
  ghost predicate LatticeRoute(route: seq<Vector3>, step: real, blocked: Vector3 -> bool) {
    forall k | 0 <= k < |route| - 2 :: LatticeLeg(route, k, step, blocked)
  }

  /** `chain` walks parent links forward: each entry after the first is a child of its predecessor. */
  ghost predicate ParentChain(nodes: seq<PathNode>, chain: seq<int>) {
    && |chain| >= 1 && chain[0] == 0
    && (forall k | 0 <= k < |chain| :: 0 <= chain[k] < |nodes|)
    && forall k | 0 < k < |chain| :: ChildLink(nodes, chain, k)
  }

  ghost predicate ChildLink(nodes: seq<PathNode>, chain: seq<int>, k: int)
    requires 0 < k < |chain|
  {
    0 < chain[k] < |nodes| && nodes[chain[k]].parentIdx == chain[k - 1]
  }

  function Reverse<T>(s: seq<T>): (r: seq<T>)
    ensures |r| == |s|
    ensures forall i | 0 <= i < |s| :: r[i] == s[|s| - 1 - i]
  {
    if |s| == 0 then [] else Reverse(s[1..]) + [s[0]]
  }

  /** Walk the parent links from `goalIdx` back to the start, reverse, and append the goal point;
      `chain` lists the node indices visited, from the start node on. */
  method ReconstructPath(nodes: seq<PathNode>, goalIdx: int, end: Vector3) returns (path: seq<Vector3>, ghost chain: seq<int>)
    requires WellLinked(nodes)
    requires 0 <= goalIdx < |nodes|
    ensures 2 <= |path| <= goalIdx + 2
    ensures path[0] == nodes[0].pos
    ensures path[|path| - 2] == nodes[goalIdx].pos
    ensures path[|path| - 1] == end
    ensures ParentChain(nodes, chain) && chain[|chain| - 1] == goalIdx
    ensures |path| == |chain| + 1 && forall k | 0 <= k < |chain| :: path[k] == nodes[chain[k]].pos
  {
    var walk: seq<Vector3> := [];
    chain := [];
    var idx := goalIdx;
    while idx != -1 && idx < |nodes|
      invariant -1 <= idx < |nodes|
      invariant |walk| == |chain| <= goalIdx - idx
      invariant forall k | 0 <= k < |chain| :: 0 <= chain[k] < |nodes| && walk[|walk| - 1 - k] == nodes[chain[k]].pos
      invariant chain == [] ==> idx == goalIdx
      invariant chain != [] ==> chain[|chain| - 1] == goalIdx && idx == nodes[chain[0]].parentIdx
      invariant forall k | 0 < k < |chain| :: ChildLink(nodes, chain, k)
      decreases idx + 1
    {
      ghost var next := [idx] + chain;
      assert chain != [] ==> ChildLink(nodes, next, 1);
      forall k | 1 < k < |next|
        ensures ChildLink(nodes, next, k)
      {
        assert ChildLink(nodes, chain, k - 1);
      }
      walk := walk + [nodes[idx].pos];
      chain := next;
      idx := nodes[idx].parentIdx;
    }
    path := Reverse(walk) + [end];
  }

  /** The node pushed for neighbour `q` of `current`, linked to `parent`. */
  function Child(q: Vector3, current: PathNode, parent: int, norm: Norm, end: Vector3): PathNode {
    PathNode(q, current.gCost + Distance(norm, current.pos, q), Distance(norm, q, end), parent)
  }

  /** The nodes pushed for the neighbours of `current` that are not closed, in order. */
  function Children(neighbors: seq<Vector3>, closed: map<Key, real>, current: PathNode, parent: int,
                    norm: Norm, end: Vector3): (r: seq<PathNode>)
    ensures |r| <= |neighbors|
    decreases |neighbors|
  {
    if |neighbors| == 0 then []
    else
      var q := neighbors[|neighbors| - 1];
      var rest := Children(neighbors[..|neighbors| - 1], closed, current, parent, norm, end);
      if PosKey(q) in closed then rest else rest + [Child(q, current, parent, norm, end)]
  }

  /** Exactly the neighbours that are not closed are pushed, each linked to `parent`, costed from
      `current`, and estimated from `end`. */
  lemma {:induction false} ChildrenSpec(neighbors: seq<Vector3>, closed: map<Key, real>, current: PathNode, parent: int,
                                        norm: Norm, end: Vector3)
    ensures var r := Children(neighbors, closed, current, parent, norm, end);
            && (forall i | 0 <= i < |r| ::
                  && r[i] == Child(r[i].pos, current, parent, norm, end)
                  && r[i].pos in neighbors
                  && PosKey(r[i].pos) !in closed)
            && (forall q | q in neighbors && PosKey(q) !in closed :: exists i | 0 <= i < |r| :: r[i].pos == q)
    decreases |neighbors|
  {
    if |neighbors| > 0 {
      var init := neighbors[..|neighbors| - 1];
      var q := neighbors[|neighbors| - 1];
      assert neighbors == init + [q];
      ChildrenSpec(init, closed, current, parent, norm, end);
      var rest := Children(init, closed, current, parent, norm, end);
      var r := Children(neighbors, closed, current, parent, norm, end);
      assert forall i | 0 <= i < |rest| :: r[i] == rest[i];
      if PosKey(q) !in closed {
        assert r[|rest|].pos == q;
      }
    }
  }

  /** Push every neighbour not yet closed, as a child of `parent`, onto the open set and the node list. */
  method ExpandNeighbors(nodes: seq<PathNode>, open: seq<PathNode>, closed: map<Key, real>, current: PathNode,
                         parent: int, neighbors: seq<Vector3>, norm: Norm, end: Vector3)
    returns (nodes': seq<PathNode>, open': seq<PathNode>)
    requires WellLinked(nodes)
    requires 0 <= parent < |nodes|
    ensures nodes' == nodes + Children(neighbors, closed, current, parent, norm, end)
    ensures open' == open + Children(neighbors, closed, current, parent, norm, end)
    ensures WellLinked(nodes')
  {
    nodes', open' := nodes, open;
    for n := 0 to |neighbors|
      invariant nodes' == nodes + Children(neighbors[..n], closed, current, parent, norm, end)
      invariant open' == open + Children(neighbors[..n], closed, current, parent, norm, end)
    {
      assert neighbors[..n + 1][..n] == neighbors[..n];
      var neighbor := neighbors[n];
      if PosKey(neighbor) in closed {
        continue;
      }
      var newG := current.gCost + Distance(norm, current.pos, neighbor);
      var newNode := PathNode(neighbor, newG, Distance(norm, neighbor, end), parent);
      open' := open' + [newNode];
      nodes' := nodes' + [newNode];
    }
    assert neighbors[..|neighbors|] == neighbors;
    ChildrenSpec(neighbors, closed, current, parent, norm, end);
    AppendChildrenWellLinked(nodes, Children(neighbors, closed, current, parent, norm, end), parent);
  }

  lemma AppendChildrenWellLinked(nodes: seq<PathNode>, kids: seq<PathNode>, parent: int)
    requires WellLinked(nodes)
    requires 0 <= parent < |nodes|
    requires forall i | 0 <= i < |kids| :: kids[i].parentIdx == parent
    ensures WellLinked(nodes + kids)
  {
    var all := nodes + kids;
    forall i | 0 < i < |all|
      ensures 0 <= all[i].parentIdx < i
    {
      if i >= |nodes| {
        assert all[i] == kids[i - |nodes|];
      }
    }
  }

  /** How a new node is linked: as written, to the node appended last; as intended, to the node popped. */
  datatype Linking = LastAppended | PoppedNode

  /** The parent index given to the children of the node popped from `popped`. */
  function ParentFor(linking: Linking, nodes: seq<PathNode>, popped: int): (p: int)
    requires 0 <= popped < |nodes|
    ensures 0 <= p < |nodes|
    ensures linking == PoppedNode ==> p == popped
    ensures linking == LastAppended ==> p == |nodes| - 1
  {
    match linking
    case LastAppended => |nodes| - 1
    case PoppedNode => popped
  }

  /** Every point of `qs` is one lattice step from `pos` and not blocked. */
  ghost predicate StepsFrom(pos: Vector3, qs: seq<Vector3>, step: real, blocked: Vector3 -> bool) {
    forall q | q in qs :: LatticeStep(pos, q, step) && !blocked(q)
  }

  /** Every node of `kids` is linked to `parent` and sits at one of `neighbors`. */
  ghost predicate LinkedTo(kids: seq<PathNode>, parent: int, neighbors: seq<Vector3>) {
    forall i | 0 <= i < |kids| :: kids[i].parentIdx == parent && kids[i].pos in neighbors
  }

  /** Linking each child to the popped node keeps every link a lattice step to an unblocked point. */
  lemma ExpandKeepsLattice(nodes: seq<PathNode>, kids: seq<PathNode>, popped: int, step: real, blocked: Vector3 -> bool,
                           neighbors: seq<Vector3>)
    requires WellLinked(nodes) && LatticeLinked(nodes, step, blocked)
    requires 0 <= popped < |nodes|
    requires StepsFrom(nodes[popped].pos, neighbors, step, blocked)
    requires LinkedTo(kids, popped, neighbors)
    ensures LatticeLinked(nodes + kids, step, blocked)
  {
    var all := nodes + kids;
    forall i | 0 < i < |all| && 0 <= all[i].parentIdx < |all|
      ensures LatticeStep(all[all[i].parentIdx].pos, all[i].pos, step) && !blocked(all[i].pos)
    {
      if i >= |nodes| {
        var kid := kids[i - |nodes|];
        assert all[i] == kid && all[popped] == nodes[popped];
        assert kid.pos in neighbors;
      } else {
        assert all[i] == nodes[i] && all[nodes[i].parentIdx] == nodes[nodes[i].parentIdx];
      }
    }
  }

  /** A parent chain through lattice-linked nodes is a lattice route. */
  lemma ChainIsLatticeRoute(nodes: seq<PathNode>, chain: seq<int>, path: seq<Vector3>, step: real,
                            blocked: Vector3 -> bool)
    requires LatticeLinked(nodes, step, blocked)
    requires ParentChain(nodes, chain)
    requires |path| == |chain| + 1 && forall k | 0 <= k < |chain| :: path[k] == nodes[chain[k]].pos
    ensures LatticeRoute(path, step, blocked)
  {
    forall k | 0 <= k < |path| - 2
      ensures LatticeLeg(path, k, step, blocked)
    {
      assert ChildLink(nodes, chain, k + 1);
    }
  }

  /** The node list after the first expansion: the start node, then a child for every neighbour
      whose key differs from the start's, all linked to the start node (both linkings agree here). */
  function FirstExpansion(start: Vector3, end: Vector3, gridStep: real, norm: Norm, blocked: Vector3 -> bool)
    : (nodes: seq<PathNode>)
    ensures |nodes| >= 1 && nodes[0].pos == start && nodes[0].parentIdx == -1
  {
    var startNode := PathNode(start, 0.0, Distance(norm, start, end), -1);
    [startNode] + Children(Neighbors(start, gridStep, blocked), map[PosKey(start) := 0.0], startNode, 0, norm, end)
  }

  /** When the last direction is unblocked, the last neighbour is the point in that direction. */
  lemma {:induction false} UnblockedLast(pos: Vector3, step: real, blocked: Vector3 -> bool, offsets: seq<Offset>)
    requires |offsets| > 0 && !blocked(Shift(pos, offsets[|offsets| - 1], step))
    ensures var r := Unblocked(pos, step, blocked, offsets);
            |r| > 0 && r[|r| - 1] == Shift(pos, offsets[|offsets| - 1], step)
    decreases |offsets|
  {
    if |offsets| > 1 {
      UnblockedLast(pos, step, blocked, offsets[1..]);
    }
  }

  /** When the corner in direction (1, 1, 1) is unblocked, it is the last neighbour. */
  lemma NeighborsEndAtCorner(pos: Vector3, step: real, blocked: Vector3 -> bool)
    requires !blocked(Shift(pos, Offset(1, 1, 1), step))
    ensures var r := Neighbors(pos, step, blocked); |r| > 0 && r[|r| - 1] == Shift(pos, Offset(1, 1, 1), step)
  {
    var offsets := Offsets();
    assert offsets[25] == OffsetAt(26) == Offset(1, 1, 1);
    UnblockedLast(pos, step, blocked, offsets);
  }

  /** When the last neighbour is not closed, the last child pushed is for it. */
  lemma ChildrenEndWithLast(neighbors: seq<Vector3>, closed: map<Key, real>, current: PathNode, parent: int,
                            norm: Norm, end: Vector3)
    requires |neighbors| > 0 && PosKey(neighbors[|neighbors| - 1]) !in closed
    ensures var r := Children(neighbors, closed, current, parent, norm, end);
            |r| > 0 && r[|r| - 1].pos == neighbors[|neighbors| - 1]
  {
  }

  /** Every unblocked point one step away that is not closed gets a child. */
  lemma ChildFor(pos: Vector3, step: real, blocked: Vector3 -> bool, o: Offset, closed: map<Key, real>,
                 current: PathNode, parent: int, norm: Norm, end: Vector3)
    requires IsUnitOffset(o) && !blocked(Shift(pos, o, step)) && PosKey(Shift(pos, o, step)) !in closed
    ensures var r := Children(Neighbors(pos, step, blocked), closed, current, parent, norm, end);
            exists i | 0 <= i < |r| :: r[i].pos == Shift(pos, o, step)
  {
    ChildrenSpec(Neighbors(pos, step, blocked), closed, current, parent, norm, end);
  }

  /** With the corner (1, 1, 1) and a direction `o` unblocked and keyed apart from the start, the
      first expansion pushes the corner last and the point in direction `o` somewhere. */
  lemma FirstExpansionEnds(start: Vector3, end: Vector3, step: real, norm: Norm, blocked: Vector3 -> bool, o: Offset)
    requires !blocked(Shift(start, Offset(1, 1, 1), step)) && PosKey(Shift(start, Offset(1, 1, 1), step)) != PosKey(start)
    requires IsUnitOffset(o) && !blocked(Shift(start, o, step)) && PosKey(Shift(start, o, step)) != PosKey(start)
    ensures var nodes := FirstExpansion(start, end, step, norm, blocked);
            && nodes[|nodes| - 1].pos == Shift(start, Offset(1, 1, 1), step)
            && exists popped | 0 < popped < |nodes| :: nodes[popped].pos == Shift(start, o, step)
  {
    var startNode := PathNode(start, 0.0, Distance(norm, start, end), -1);
    var closed := map[PosKey(start) := 0.0];
    var neighbors := Neighbors(start, step, blocked);
    NeighborsEndAtCorner(start, step, blocked);
    ChildrenEndWithLast(neighbors, closed, startNode, 0, norm, end);
    var kids := Children(neighbors, closed, startNode, 0, norm, end);
    var nodes := [startNode] + kids;
    assert nodes[|nodes| - 1] == kids[|kids| - 1];
    ChildFor(start, step, blocked, o, closed, startNode, 0, norm, end);
    var i :| 0 <= i < |kids| && kids[i].pos == Shift(start, o, step);
    assert nodes[i + 1] == kids[i];
  }

  /** The corner and the +x neighbour of (5, 5, 5) at grid step 1, and their keys. */
  lemma StartFiveKeys()
    ensures Shift(Vector3(5.0, 5.0, 5.0), Offset(1, 1, 1), 1.0) == Vector3(6.0, 6.0, 6.0)
    ensures Shift(Vector3(5.0, 5.0, 5.0), Offset(1, 0, 0), 1.0) == Vector3(6.0, 5.0, 5.0)
    ensures PosKey(Vector3(6.0, 6.0, 6.0)) == Key(6, 6, 6) && PosKey(Vector3(6.0, 5.0, 5.0)) == Key(6, 5, 5)
    ensures PosKey(Vector3(5.0, 5.0, 5.0)) == Key(5, 5, 5)
  {
  }

  /** From a start at (5, 5, 5) with grid step 1 and the corner (6, 6, 6) and neighbour (6, 5, 5)
      unblocked, the first expansion pushes (6, 6, 6) last and pushes (6, 5, 5) somewhere. */
  lemma FirstExpansionShape(norm: Norm, end: Vector3, blocked: Vector3 -> bool)
    requires !blocked(Vector3(6.0, 6.0, 6.0)) && !blocked(Vector3(6.0, 5.0, 5.0))
    ensures var nodes := FirstExpansion(Vector3(5.0, 5.0, 5.0), end, 1.0, norm, blocked);
            && nodes[|nodes| - 1].pos == Vector3(6.0, 6.0, 6.0)
            && exists popped | 0 < popped < |nodes| :: nodes[popped].pos == Vector3(6.0, 5.0, 5.0)
  {
    StartFiveKeys();
    FirstExpansionEnds(Vector3(5.0, 5.0, 5.0), end, 1.0, norm, blocked, Offset(1, 0, 0));
  }

  /** Every child pushed in one expansion carries the same parent index and is one of the neighbours. */
  lemma ChildrenLinkedTo(neighbors: seq<Vector3>, closed: map<Key, real>, current: PathNode, parent: int,
                         norm: Norm, end: Vector3)
    ensures LinkedTo(Children(neighbors, closed, current, parent, norm, end), parent, neighbors)
  {
    ChildrenSpec(neighbors, closed, current, parent, norm, end);
  }

  /** Every neighbour is one lattice step away. */
  lemma NeighborIsStep(pos: Vector3, step: real, blocked: Vector3 -> bool, q: Vector3)
    requires q in Neighbors(pos, step, blocked)
    ensures LatticeStep(pos, q, step)
  {
  }

  /** Every neighbour is one lattice step away and not blocked. */
  lemma NeighborsAreSteps(pos: Vector3, step: real, blocked: Vector3 -> bool)
    ensures StepsFrom(pos, Neighbors(pos, step, blocked), step, blocked)
  {
  }

  /** Every child pushed for the neighbours of `pos` is one lattice step from `pos`. */
  lemma ChildrenAreSteps(pos: Vector3, step: real, blocked: Vector3 -> bool, closed: map<Key, real>,
                         current: PathNode, parent: int, norm: Norm, end: Vector3)
    ensures var r := Children(Neighbors(pos, step, blocked), closed, current, parent, norm, end);
            forall i | 0 <= i < |r| :: LatticeStep(pos, r[i].pos, step)
  {
    var neighbors := Neighbors(pos, step, blocked);
    var r := Children(neighbors, closed, current, parent, norm, end);
    ChildrenLinkedTo(neighbors, closed, current, parent, norm, end);
    forall i | 0 <= i < |r|
      ensures LatticeStep(pos, r[i].pos, step)
    {
      NeighborIsStep(pos, step, blocked, r[i].pos);
    }
  }

  /** Expanding node `popped`: as written every child is linked to the last node, as intended to
      `popped` itself; either way the unclosed neighbour `q` is pushed. */
  lemma ExpansionLinks(nodes: seq<PathNode>, popped: int, closed: map<Key, real>, neighbors: seq<Vector3>,
                       q: Vector3, norm: Norm, end: Vector3)
    requires 0 <= popped < |nodes|
    requires q in neighbors && PosKey(q) !in closed
    ensures var current := nodes[popped];
            var asWritten := Children(neighbors, closed, current, ParentFor(LastAppended, nodes, popped), norm, end);
            var intended := Children(neighbors, closed, current, ParentFor(PoppedNode, nodes, popped), norm, end);
            && (exists i | 0 <= i < |asWritten| :: asWritten[i].pos == q)
            && (exists i | 0 <= i < |intended| :: intended[i].pos == q)
            && (forall i | 0 <= i < |asWritten| :: asWritten[i].parentIdx == |nodes| - 1)
            && (forall i | 0 <= i < |intended| :: intended[i].parentIdx == popped && intended[i].pos in neighbors)
  {
    var current := nodes[popped];
    assert ParentFor(LastAppended, nodes, popped) == |nodes| - 1;
    assert ParentFor(PoppedNode, nodes, popped) == popped;
    ChildrenSpec(neighbors, closed, current, |nodes| - 1, norm, end);
    ChildrenSpec(neighbors, closed, current, popped, norm, end);
    ChildrenLinkedTo(neighbors, closed, current, |nodes| - 1, norm, end);
    ChildrenLinkedTo(neighbors, closed, current, popped, norm, end);
  }

  /** As written, the children of the node popped after the first expansion are all linked to the
      node that expansion pushed last. From (5, 5, 5), popping the neighbour (6, 5, 5) pushes
      (5, 4, 4), one step from the popped node, linked to (6, 6, 6), two steps away along y and z;
      linked to the popped node instead, every child is one step from its parent. `FirstExpansionShape`
      shows that a node at (6, 5, 5) exists. */
  lemma LastAppendedLinkJumps(norm: Norm, end: Vector3, blocked: Vector3 -> bool, popped: int)
    requires !blocked(Vector3(6.0, 6.0, 6.0)) && !blocked(Vector3(6.0, 5.0, 5.0)) && !blocked(Vector3(5.0, 4.0, 4.0))
    requires var nodes := FirstExpansion(Vector3(5.0, 5.0, 5.0), end, 1.0, norm, blocked);
             0 < popped < |nodes| && nodes[popped].pos == Vector3(6.0, 5.0, 5.0)
    ensures var nodes := FirstExpansion(Vector3(5.0, 5.0, 5.0), end, 1.0, norm, blocked);
            var current := nodes[popped];
            var closed := map[Key(5, 5, 5) := 0.0, Key(6, 5, 5) := current.gCost];
            var neighbors := Neighbors(current.pos, 1.0, blocked);
            var asWritten := Children(neighbors, closed, current, ParentFor(LastAppended, nodes, popped), norm, end);
            var intended := Children(neighbors, closed, current, ParentFor(PoppedNode, nodes, popped), norm, end);
            && (exists i | 0 <= i < |asWritten| :: asWritten[i].pos == Vector3(5.0, 4.0, 4.0))
            && (forall i | 0 <= i < |asWritten| :: asWritten[i].parentIdx == |nodes| - 1)
            && nodes[|nodes| - 1].pos == Vector3(6.0, 6.0, 6.0)
            && !LatticeStep(Vector3(6.0, 6.0, 6.0), Vector3(5.0, 4.0, 4.0), 1.0)
            && (forall i | 0 <= i < |intended| :: && intended[i].parentIdx == popped
                                                  && LatticeStep(current.pos, intended[i].pos, 1.0))
  {
    var nodes := FirstExpansion(Vector3(5.0, 5.0, 5.0), end, 1.0, norm, blocked);
    var closed := map[Key(5, 5, 5) := 0.0, Key(6, 5, 5) := nodes[popped].gCost];
    var current := nodes[popped];
    var neighbors := Neighbors(current.pos, 1.0, blocked);
    var q := Vector3(5.0, 4.0, 4.0);
    FirstExpansionShape(norm, end, blocked);
    assert Shift(current.pos, Offset(-1, -1, -1), 1.0) == q && IsUnitOffset(Offset(-1, -1, -1));
    assert PosKey(q) == Key(5, 4, 4);
    ExpansionLinks(nodes, popped, closed, neighbors, q, norm, end);
    ChildrenAreSteps(current.pos, 1.0, blocked, closed, current, popped, norm, end);
    TooFarFromLastAppended();
  }

  lemma TooFarFromLastAppended()
    ensures !LatticeStep(Vector3(6.0, 6.0, 6.0), Vector3(5.0, 4.0, 4.0), 1.0)
  {
    forall o | IsUnitOffset(o)
      ensures Shift(Vector3(6.0, 6.0, 6.0), o, 1.0) != Vector3(5.0, 4.0, 4.0)
    {
    }
  }

  /** Every open-set entry is the node its index names. */
  ghost predicate Indexed(nodes: seq<PathNode>, open: seq<PathNode>, openIdx: seq<int>) {
    && |openIdx| == |open|
    && forall i | 0 <= i < |open| :: 0 <= openIdx[i] < |nodes| && nodes[openIdx[i]] == open[i]
  }

  /** Take the first node of least total cost out of the open set, with its index. */
  method Pop(nodes: seq<PathNode>, open: seq<PathNode>, openIdx: seq<int>)
    returns (current: PathNode, popped: int, open': seq<PathNode>, openIdx': seq<int>)
    requires Indexed(nodes, open, openIdx) && |open| > 0
    ensures current == open[MinIndex(open)]
    ensures 0 <= popped < |nodes| && nodes[popped] == current
    ensures |open'| == |open| - 1
    ensures multiset(open') + multiset{current} == multiset(open)
    ensures Indexed(nodes, open', openIdx')
  {
    var k := MinIndex(open);
    current := open[k];
    popped := openIdx[k];
    open' := open[..k] + open[k + 1..];
    openIdx' := openIdx[..k] + openIdx[k + 1..];
    assert open == open[..k] + [current] + open[k + 1..];
    forall i | 0 <= i < |open'|
      ensures 0 <= openIdx'[i] < |nodes| && nodes[openIdx'[i]] == open'[i]
    {
      if i >= k {
        assert open'[i] == open[i + 1] && openIdx'[i] == openIdx[i + 1];
      }
    }
  }

  /** The goal branch: reconstruct from the first node near the popped position. */
  method ReachGoal(nodes: seq<PathNode>, current: PathNode, popped: int, end: Vector3,
                   ghost step: real, ghost blocked: Vector3 -> bool)
    returns (path: seq<Vector3>)
    requires WellLinked(nodes)
    requires 0 <= popped < |nodes| && nodes[popped] == current
    ensures |path| >= 2 && path[0] == nodes[0].pos && path[|path| - 1] == end
    ensures ApproxEq(path[|path| - 2], current.pos)
    ensures LatticeLinked(nodes, step, blocked) ==> LatticeRoute(path, step, blocked)
  {
    var idx := GoalIndex(nodes, current.pos);
    ApproxEqReflexive(current.pos);
    ghost var chain;
    path, chain := ReconstructPath(nodes, idx, end);
    if LatticeLinked(nodes, step, blocked) {
      ChainIsLatticeRoute(nodes, chain, path, step, blocked);
    }
  }

  /** Pushing the children of the popped node, linked to it, keeps every link a lattice step. */
  lemma ExpandLattice(nodes: seq<PathNode>, closed: map<Key, real>, popped: int, step: real,
                      blocked: Vector3 -> bool, norm: Norm, end: Vector3)
    requires WellLinked(nodes) && LatticeLinked(nodes, step, blocked)
    requires 0 <= popped < |nodes|
    ensures var current := nodes[popped];
            var kids := Children(Neighbors(current.pos, step, blocked), closed, current, popped, norm, end);
            LatticeLinked(nodes + kids, step, blocked)
  {
    var current := nodes[popped];
    var neighbors := Neighbors(current.pos, step, blocked);
    ChildrenLinkedTo(neighbors, closed, current, popped, norm, end);
    NeighborsAreSteps(current.pos, step, blocked);
    ExpandKeepsLattice(nodes, Children(neighbors, closed, current, popped, norm, end), popped, step, blocked, neighbors);
  }

  /** The expansion branch: push the unclosed neighbours, linked as `linking` says, and index them. */
  method Expand(nodes: seq<PathNode>, open: seq<PathNode>, openIdx: seq<int>, closed: map<Key, real>,
                current: PathNode, popped: int, linking: Linking, gridStep: real, norm: Norm,
                blocked: Vector3 -> bool, end: Vector3)
    returns (nodes': seq<PathNode>, open': seq<PathNode>, openIdx': seq<int>)
    requires WellLinked(nodes) && Indexed(nodes, open, openIdx)
    requires 0 <= popped < |nodes| && nodes[popped] == current
    ensures WellLinked(nodes') && Indexed(nodes', open', openIdx')
    ensures |nodes'| >= |nodes| && nodes'[..|nodes|] == nodes
    ensures linking == PoppedNode && LatticeLinked(nodes, gridStep, blocked) ==> LatticeLinked(nodes', gridStep, blocked)
  {
    var neighbors := Neighbors(current.pos, gridStep, blocked);
    var parent := ParentFor(linking, nodes, popped);
    ghost var kids := Children(neighbors, closed, current, parent, norm, end);
    if linking == PoppedNode && LatticeLinked(nodes, gridStep, blocked) {
      assert parent == popped;
      ExpandLattice(nodes, closed, popped, gridStep, blocked, norm, end);
    }
    nodes', open' := ExpandNeighbors(nodes, open, closed, current, parent, neighbors, norm, end);
    openIdx' := openIdx + seq(|nodes'| - |nodes|, i => |nodes| + i);
    assert nodes'[..|nodes|] == nodes;
    forall i | 0 <= i < |open'|
      ensures 0 <= openIdx'[i] < |nodes'| && nodes'[openIdx'[i]] == open'[i]
    {
      if i >= |open| {
        assert open'[i] == kids[i - |open|] == nodes'[|nodes| + i - |open|];
      } else {
        assert open'[i] == open[i] && nodes'[openIdx[i]] == nodes[openIdx[i]];
      }
    }
  }

  /** The search loop of `findPath`: at most `MaxIterations` pops; on reaching the goal, the
      raw route from the start through the parent links to `end`. Open-set entries carry the
      index of their node so that `PoppedNode` linking can name it. */
  method SearchLoop(start: Vector3, end: Vector3, gridStep: real, norm: Norm, blocked: Vector3 -> bool, linking: Linking)
    returns (raw: Option<seq<Vector3>>, iterations: int)
    ensures 0 <= iterations <= MaxIterations
    ensures raw.Some? ==> |raw.value| >= 2 && raw.value[0] == start && raw.value[|raw.value| - 1] == end
    ensures raw.Some? ==> exists p :: ApproxEq(raw.value[|raw.value| - 2], p) && Distance(norm, p, end) < gridStep * GoalRadius
    ensures raw.Some? && linking == PoppedNode ==> LatticeRoute(raw.value, gridStep, blocked)
    ensures Distance(norm, start, end) < gridStep * GoalRadius ==> raw.Some? && iterations == 1
  {
    var startNode := PathNode(start, 0.0, Distance(norm, start, end), -1);
    var open := [startNode];
    var openIdx := [0];
    var closed: map<Key, real> := map[];
    var nodes := [startNode];
    iterations := 0;
    while |open| > 0 && iterations < MaxIterations
      invariant 0 <= iterations <= MaxIterations
      invariant WellLinked(nodes) && nodes[0].pos == start
      invariant Indexed(nodes, open, openIdx)
      invariant linking == PoppedNode ==> LatticeLinked(nodes, gridStep, blocked)
      invariant iterations == 0 ==> open == [startNode] && openIdx == [0] && nodes == [startNode] && closed == map[]
      invariant Distance(norm, start, end) < gridStep * GoalRadius ==> iterations == 0
      decreases MaxIterations - iterations
    {
      iterations := iterations + 1;
      var current, popped;
      current, popped, open, openIdx := Pop(nodes, open, openIdx);
      var key := PosKey(current.pos);
      if key in closed {
        continue;
      }
      closed := closed[key := current.gCost];
      if Distance(norm, current.pos, end) < gridStep * GoalRadius {
        var path := ReachGoal(nodes, current, popped, end, gridStep, blocked);
        return Some(path), iterations;
      }
      var before := nodes;
      nodes, open, openIdx := Expand(nodes, open, openIdx, closed, current, popped, linking, gridStep, norm, blocked, end);
      assert nodes[0] == before[0];
    }
    raw := None;
  }

  /** The search as written: children are linked to the node appended last. */
  method AStarAsWritten(start: Vector3, end: Vector3, gridStep: real, norm: Norm, blocked: Vector3 -> bool)
    returns (raw: Option<seq<Vector3>>, iterations: int)
    ensures 0 <= iterations <= MaxIterations
    ensures raw.Some? ==> |raw.value| >= 2 && raw.value[0] == start && raw.value[|raw.value| - 1] == end
    ensures raw.Some? ==> exists p :: ApproxEq(raw.value[|raw.value| - 2], p) && Distance(norm, p, end) < gridStep * GoalRadius
    ensures Distance(norm, start, end) < gridStep * GoalRadius ==> raw.Some? && iterations == 1
  {
    raw, iterations := SearchLoop(start, end, gridStep, norm, blocked, LastAppended);
  }

  /** The search with children linked to the node popped: a found route walks the lattice
      through unblocked points to a point near the goal, then to the goal. */
  method AStar(start: Vector3, end: Vector3, gridStep: real, norm: Norm, blocked: Vector3 -> bool)
    returns (raw: Option<seq<Vector3>>, iterations: int)
    ensures 0 <= iterations <= MaxIterations
    ensures raw.Some? ==> |raw.value| >= 2 && raw.value[0] == start && raw.value[|raw.value| - 1] == end
    ensures raw.Some? ==> exists p :: ApproxEq(raw.value[|raw.value| - 2], p) && Distance(norm, p, end) < gridStep * GoalRadius
    ensures raw.Some? ==> LatticeRoute(raw.value, gridStep, blocked)
    ensures Distance(norm, start, end) < gridStep * GoalRadius ==> raw.Some? && iterations == 1
  {
    raw, iterations := SearchLoop(start, end, gridStep, norm, blocked, PoppedNode);
  }
}

=== FILE: smoothing.dfy ===
/** Greedy line-of-sight shortening of a raw route (smoothPath in PathFinder.h).

    From the current waypoint the smoother scans candidate successors from the
    last waypoint backwards and keeps the first whose straight segment is
    clear; when none further than the next waypoint is clear it keeps the next
    waypoint without testing it. The segment test is a parameter.
 */
module Smoothing {
  import opened Geometry

  /** A segment test between two points. */
  type Clearance = (Vector3, Vector3) -> bool

  /** Successor `j` of cursor `i`: adjacent or clear, and no later waypoint is clear from `i`. */
  ghost predicate GreedyStep(path: seq<Vector3>, clear: Clearance, i: int, j: int)
    requires 0 <= i < j < |path|
  {
    && (j == i + 1 || clear(path[i], path[j]))
    && forall l | j < l < |path| :: !clear(path[i], path[l])
  }

  /** `idx` lists the waypoints the greedy smoother keeps, in order, ending at the last one. */
  ghost predicate GreedyChain(path: seq<Vector3>, clear: Clearance, idx: seq<int>)
  {
    && |idx| >= 1
    && (forall k | 0 <= k < |idx| :: 0 <= idx[k] < |path|)
    && idx[|idx| - 1] == |path| - 1
    && forall k | 0 <= k < |idx| - 1 :: idx[k] < idx[k + 1] && GreedyStep(path, clear, idx[k], idx[k + 1])
  }

  /** The inner loop: scanning down from `j`, the first candidate clear from `i`, or `i + 1`. */
  function FurthestVisible(path: seq<Vector3>, clear: Clearance, i: int, j: int): (k: int)
    requires 0 <= i < j < |path|
    ensures i < k <= j
    ensures k == i + 1 || clear(path[i], path[k])
    ensures forall l | k < l <= j :: !clear(path[i], path[l])
    decreases j
  {
    if j > i + 1 && !clear(path[i], path[j]) then FurthestVisible(path, clear, i, j - 1) else j
  }

  /** The outer loop: the indices visited from cursor `i` up to the last waypoint. */
  function Chain(path: seq<Vector3>, clear: Clearance, i: int): (idx: seq<int>)
    requires 0 <= i < |path|
    ensures |idx| >= 1 && idx[0] == i
    ensures forall k | 0 <= k < |idx| :: i <= idx[k] < |path|
    decreases |path| - i
  {
    if i == |path| - 1 then [i]
    else
      var j := FurthestVisible(path, clear, i, |path| - 1);
      [i] + Chain(path, clear, j)
  }

  /** The indices the outer loop visits form a greedy chain. */
  lemma {:induction false} ChainIsGreedy(path: seq<Vector3>, clear: Clearance, i: int)
    requires 0 <= i < |path|
    ensures GreedyChain(path, clear, Chain(path, clear, i))
    decreases |path| - i
  {
    if i < |path| - 1 {
      var j := FurthestVisible(path, clear, i, |path| - 1);
      ChainIsGreedy(path, clear, j);
      GreedyChainCons(path, clear, i, Chain(path, clear, j));
    }
  }

  /** A greedy step in front of a greedy chain is a greedy chain. */
  lemma GreedyChainCons(path: seq<Vector3>, clear: Clearance, i: int, rest: seq<int>)
    requires GreedyChain(path, clear, rest)
    requires 0 <= i < rest[0] && GreedyStep(path, clear, i, rest[0])
    ensures GreedyChain(path, clear, [i] + rest)
  {
    var idx := [i] + rest;
    forall k | 0 < k < |idx| - 1
      ensures idx[k] < idx[k + 1] && GreedyStep(path, clear, idx[k], idx[k + 1])
    {
      assert idx[k] == rest[k - 1] && idx[k + 1] == rest[k];
    }
  }

  /** The waypoints of `path` at the indices `idx`. */
  function At(path: seq<Vector3>, idx: seq<int>): (r: seq<Vector3>)
    requires forall k | 0 <= k < |idx| :: 0 <= idx[k] < |path|
    ensures |r| == |idx|
  {
    seq(|idx|, k requires 0 <= k < |idx| => path[idx[k]])
  }

  /** The smoothed route: short routes unchanged, longer ones reduced to the greedy chain from 0. */
  function Smooth(path: seq<Vector3>, clear: Clearance): seq<Vector3> {
    if |path| <= 2 then path else At(path, Chain(path, clear, 0))
  }

  /** A smoothed route of more than two waypoints keeps exactly the waypoints of a greedy chain from the first. */
  lemma SmoothIsGreedy(path: seq<Vector3>, clear: Clearance)
    ensures |path| <= 2 ==> Smooth(path, clear) == path
    ensures |path| > 2 ==> exists idx :: && GreedyChain(path, clear, idx) && idx[0] == 0
                                         && |Smooth(path, clear)| == |idx|
                                         && forall k | 0 <= k < |idx| :: Smooth(path, clear)[k] == path[idx[k]]
  {
    if |path| > 2 {
      ChainIsGreedy(path, clear, 0);
    }
  }

  /** The waypoints still to be appended once the cursor stands at `i`. */
  function Remaining(path: seq<Vector3>, clear: Clearance, i: int): seq<Vector3>
    requires 0 <= i < |path|
  {
    At(path, Chain(path, clear, i)[1..])
  }

  /** The inner loop of `smoothPath`: scan candidates from the last waypoint down to `i + 1`. */
  method ScanBack(path: seq<Vector3>, clear: Clearance, i: int) returns (j: int)
    requires 0 <= i < |path| - 1
    ensures j == FurthestVisible(path, clear, i, |path| - 1)
  {
    j := |path| - 1;
    while j > i + 1
      invariant i < j <= |path| - 1
      invariant FurthestVisible(path, clear, i, j) == FurthestVisible(path, clear, i, |path| - 1)
      decreases j
    {
      if clear(path[i], path[j]) {
        break;
      }
      j := j - 1;
    }
  }

  /** `smoothPath`: the outer loop moves the cursor strictly forward to the last waypoint. */
  method SmoothPath(path: seq<Vector3>, clear: Clearance) returns (smoothed: seq<Vector3>)
    ensures smoothed == Smooth(path, clear)
  {
    if |path| <= 2 {
      return path;
    }
    smoothed := [path[0]];
    var i := 0;
    RemainingBounds(path, clear);
    while i < |path| - 1
      invariant 0 <= i < |path|
      invariant smoothed + Remaining(path, clear, i) == Smooth(path, clear)
      decreases |path| - 1 - i
    {
      var j := ScanBack(path, clear, i);
      ghost var rest := Remaining(path, clear, j);
      ChainUnfold(path, clear, i);
      assert (smoothed + [path[j]]) + rest == smoothed + ([path[j]] + rest);
      smoothed := smoothed + [path[j]];
      i := j;
    }
  }

  /** The loop starts with the first waypoint and ends with nothing left to append. */
  lemma RemainingBounds(path: seq<Vector3>, clear: Clearance)
    requires |path| > 2
    ensures Smooth(path, clear) == [path[0]] + Remaining(path, clear, 0)
    ensures Remaining(path, clear, |path| - 1) == []
  {
    var idx := Chain(path, clear, 0);
    assert At(path, idx) == [path[0]] + At(path, idx[1..]);
  }

  /** One outer iteration: the chain from `i` continues with the chain from its furthest visible successor. */
  lemma ChainUnfold(path: seq<Vector3>, clear: Clearance, i: int)
    requires 0 <= i < |path| - 1
    ensures Remaining(path, clear, i)
         == [path[FurthestVisible(path, clear, i, |path| - 1)]]
            + Remaining(path, clear, FurthestVisible(path, clear, i, |path| - 1))
  {
    var j := FurthestVisible(path, clear, i, |path| - 1);
    assert Chain(path, clear, i)[1..] == Chain(path, clear, j);
  }

  /** Strictly increasing indices below `n` number at most `n - idx[0]`. */
  lemma {:induction false} IncreasingIsShort(idx: seq<int>, n: int)
    requires |idx| >= 1
    requires forall k | 0 <= k < |idx| :: idx[k] < n
    requires forall k | 0 <= k < |idx| - 1 :: idx[k] < idx[k + 1]
    ensures |idx| <= n - idx[0]
    decreases |idx|
  {
    if |idx| > 1 {
      IncreasingIsShort(idx[1..], n);
    }
  }

  /** Endpoints kept, order kept, never longer than the input. */
  lemma SmoothEnds(path: seq<Vector3>, clear: Clearance)
    ensures |Smooth(path, clear)| <= |path|
    ensures |path| >= 1 ==> |Smooth(path, clear)| >= 1 && Smooth(path, clear)[0] == path[0]
    ensures |path| >= 1 ==> Smooth(path, clear)[|Smooth(path, clear)| - 1] == path[|path| - 1]
    ensures |path| >= 2 ==> |Smooth(path, clear)| >= 2
  {
    if |path| > 2 {
      var idx := Chain(path, clear, 0);
      ChainIsGreedy(path, clear, 0);
      IncreasingIsShort(idx, |path|);
    }
  }

  /** Along a greedy chain, no waypoint beyond the next kept one is clear from a kept one. */
  lemma ChainSkipsAreBlocked(path: seq<Vector3>, clear: Clearance, idx: seq<int>, k: int, l: int)
    requires GreedyChain(path, clear, idx)
    requires 0 <= k && k + 1 < l < |idx|
    ensures !clear(path[idx[k]], path[idx[l]])
  {
    IncreasingAfter(path, clear, idx, k + 1, l);
  }

  lemma {:induction false} IncreasingAfter(path: seq<Vector3>, clear: Clearance, idx: seq<int>, a: int, b: int)
    requires GreedyChain(path, clear, idx)
    requires 0 <= a < b < |idx|
    ensures idx[a] < idx[b]
    decreases b - a
  {
    if b > a + 1 {
      IncreasingAfter(path, clear, idx, a, b - 1);
    }
  }

  /** On a smoothed route every cursor's furthest visible successor is the next waypoint. */
  lemma {:induction false} ResmoothChain(path: seq<Vector3>, clear: Clearance, s: seq<Vector3>, idx: seq<int>, k: int)
    requires GreedyChain(path, clear, idx)
    requires |s| == |idx| && forall m | 0 <= m < |idx| :: s[m] == path[idx[m]]
    requires 0 <= k < |s|
    ensures Chain(s, clear, k) == seq(|s| - k, m => k + m)
    decreases |s| - k
  {
    if k < |s| - 1 {
      var j := FurthestVisible(s, clear, k, |s| - 1);
      if j != k + 1 {
        ChainSkipsAreBlocked(path, clear, idx, k, j);
        assert false;
      }
      ResmoothChain(path, clear, s, idx, k + 1);
      assert Chain(s, clear, k) == [k] + Chain(s, clear, k + 1);
    }
  }

  /** Smoothing a smoothed route changes nothing. */
  lemma SmoothIdempotent(path: seq<Vector3>, clear: Clearance)
    ensures Smooth(Smooth(path, clear), clear) == Smooth(path, clear)
  {
    var s := Smooth(path, clear);
    if |path| > 2 && |s| > 2 {
      var idx := Chain(path, clear, 0);
      ChainIsGreedy(path, clear, 0);
      assert s == At(path, idx);
      ResmoothChain(path, clear, s, idx, 0);
      AtIdentity(s);
    }
  }

  lemma AtIdentity(s: seq<Vector3>)
    ensures At(s, seq(|s|, m => m)) == s
  {
  }
}
